=== FILE: README.md ===
# Confluence knowledge base: a Dafny model of its text pipeline

The knowledge base downloads the pages of the configured Confluence spaces. It turns each page's HTML into plain text, cuts that text into overlapping passages, and stores the passages in a vector collection under ids of the form `<page id>_chunk_<n>`. When it loads, it rebuilds that collection unless the stored metadata records the same set of spaces as the configured ones. A companion script lists the spaces an account can see and suggests a value for `CONFLUENCE_SPACES`.

This project models the deterministic core of that pipeline and proves properties about it:

- `Text` holds the Python string operations the code relies on: `str.isspace` with its exact character set, `strip`, `find`, `rfind`, `split`, `join`, `str(int)`, and the `if c` filter.
- `Whitespace` is the whitespace clean-up at the end of `clean_html`. It uses the exact line-boundary set of `str.splitlines`.
- `Chunker` is `chunk_text`: the windows, the cut back to a full stop or line feed past the halfway point, the strip, the overlap step and the filter. It comes both as a recursive function and as the `while` loop, and the two are proved equal.
- `Indexer` covers the records `index_pages` builds, their ids, and the batches of 100. The collection is a map from id to stored entry.
- `Pagination` is the offset/limit loop shared by `fetch_all_pages` and `list_all_spaces`, against an abstract server, plus the skipping of blank space keys.
- `Startup` covers parsing `CONFLUENCE_SPACES`, the check made before the server starts, and the reindex decision taken at load time.
- `SpaceFinder` covers the description default, its truncation, and the suggested key list of `find_space_keys.py`.

The network, the HTML parser, the embedding model, the vector database, files and the clock are not modelled. They become parameters instead:

- a server function per space key;
- the text-extraction function `Chunking.extract`;
- the page count and the timestamp written to the metadata.

The model follows the code. Three behaviours a reader of a sliding-window chunker might expect do not hold, and the model states what happens instead:

- One might expect a text no longer than the chunk size to give a single chunk. Under `0 <= overlap` and `2 * overlap <= chunk_size`, the loop visits two windows when the text is longer than `chunk_size - overlap`: the whole text, then its last part again from `chunk_size - overlap` on (`Chunker.ShortTextTail`). With `0 <= overlap`, a non-blank text of at most `chunk_size - overlap` characters gives exactly one chunk (`Chunker.SingleChunk`). A longer text can still give one chunk when its second window is blank, because the `if c` filter drops it.
- Chunk ids are not unique by construction, and the code adds records with `collection.add`. Distinct page ids give distinct chunk ids (`Indexer.UniqueIds`). A page id repeated on a page that has chunks repeats a chunk id (`Indexer.RepeatedPageRepeatsIds`), as happens when a space key is listed twice and its pages are fetched twice.
- Concatenating the chunks minus their overlaps does not in general rebuild the text, because each window is stripped and blank ones are dropped. The model proves the guarantees for the raw windows instead: together they cover the text (`Chunker.WindowsCover`), and each one shares exactly `overlap` characters with the next (`Chunker.WindowsOverlap`).

## Model

| member | source | states |
|---|---|---|
| Chunker.ChunkText | confluence_knowledge_base.py:116-138 | Fails with `InvalidConfiguration(size, overlap)` exactly for the configurations on which the loop can fail to advance. Otherwise every chunk is non-empty and at most `chunk_size` characters, and empty text gives no chunks. |
| Chunker.ConfiguredIsValid | confluence_knowledge_base.py:29-30 | The shipped chunk size 1000 and overlap 200 form a valid configuration, so the shipped program never reaches the `InvalidConfiguration` branch. |
| Chunker.Windows | confluence_knowledge_base.py:121-136 | The raw windows the loop visits, one per iteration. The contract is carried by `Chunker.WindowsShape`. |
| Chunker.Chunks | confluence_knowledge_base.py:121-138 | The `if c` filter (`Text.NonEmpty`) of the stripped window texts, so order and repeats are kept (`Text.NonEmptyConcat`). |
| Chunker.Slice | confluence_knowledge_base.py:123 | `text[start:end]`, with the end clipped to the text as Python slices are. It has no contract of its own; `Chunker.NextWindow` and `Chunker.WindowsOverlap` are stated over it. |
| Chunker.ChunksShape | confluence_knowledge_base.py:121-138 | Every chunk is non-empty and at most `chunk_size` long. The chunks and the non-blank stripped window texts are the same strings, and empty text has no chunk. |
| Chunker.LastBoundary | confluence_knowledge_base.py:127-129 | `max(rfind('.'), rfind('\n'))` is -1 or the index of a full stop or line feed, and no such character follows it in the window. |
| Chunker.WindowEnd | confluence_knowledge_base.py:122-133 | A window ends at most `chunk_size` after its start. It is cut only when the text goes on past it and its last boundary character lies past half the chunk size, and then it ends just after that character. |
| Chunker.CutPointIsLast | confluence_knowledge_base.py:126-133 | The last boundary character of a window is the only place a cut can happen. |
| Chunker.NextStart | confluence_knowledge_base.py:136 | Under a valid configuration, the next start `end - overlap` lies strictly after the current start. |
| Chunker.AdvancesIff | confluence_knowledge_base.py:121-136 | A configuration is valid if and only if every step advances on every text, so validity is exactly the termination condition of the loop. |
| Chunker.StallWhenInvalid | confluence_knowledge_base.py:121-136 | For every invalid configuration, exhibits a text on which the first step does not advance. It stays in place whenever `overlap <= chunk_size`. |
| Chunker.WindowsShape | confluence_knowledge_base.py:121-136 | The first window starts at 0 and each later one starts `overlap` before the previous end. Every window starts inside the text and spans at most `chunk_size`, and the step after the last window leaves the text. |
| Chunker.WindowsCover | confluence_knowledge_base.py:121-136 | With a non-negative overlap, every character of the text lies inside some window. |
| Chunker.WindowsOverlap | confluence_knowledge_base.py:122-136 | Consecutive windows share exactly `overlap` characters (`SharedText`): the last `overlap` characters of one are the first of the next, while the first ends inside the text. |
| Chunker.SingleChunk | confluence_knowledge_base.py:121-138 | With `0 <= overlap`, a non-blank text of at most `chunk_size - overlap` characters is exactly one chunk: the text, stripped. |
| Chunker.ShortTextTail | confluence_knowledge_base.py:121-136 | When `0 <= overlap` and `2 * overlap <= chunk_size`, a text longer than `chunk_size - overlap` but at most `chunk_size` is visited twice: once whole, then from `chunk_size - overlap` on. |
| Chunker.NextWindow | confluence_knowledge_base.py:122-133 | One pass of the loop body computes the window end and the window text that the functional model defines. |
| Chunker.StrippedWindowsLoop | confluence_knowledge_base.py:118-136 | The `while` loop appends the stripped text of every window, in order. |
| Chunker.ChunkTextLoop | confluence_knowledge_base.py:116-138 | The loop followed by the filter of empty chunks equals `ChunkText`. |
| Text.IsSpace | confluence_knowledge_base.py:109-110 | The whitespace set of `str.isspace()`, which `strip()` removes, written out character by character for Python 3's string type. |
| Text.Strip | confluence_knowledge_base.py:109-110 | `strip()` removes exactly the leading and trailing whitespace and keeps the middle. It is empty exactly for blank strings, and otherwise starts and ends with a non-space. |
| Text.StripIdempotent | confluence_knowledge_base.py:135 | Stripping twice is stripping once. |
| Text.RFind | confluence_knowledge_base.py:127-128 | `rfind` of a character is -1 exactly when the character is absent; otherwise it is the index of its last occurrence. |
| Text.Split | confluence_knowledge_base.py:27 | `str.split` with a non-empty separator always gives at least one piece. Its round trips are `Text.JoinSplit` and `Text.SplitJoin`. |
| Text.Join | confluence_knowledge_base.py:111 | `sep.join(parts)`, the inverse partner of `Text.Split`. |
| Text.JoinSplit | confluence_knowledge_base.py:27 | Joining the pieces of a split with the separator gives the string back. |
| Text.SplitParts | confluence_knowledge_base.py:110 | No piece of a split contains the separator, and every piece is made of characters of the input. |
| Text.NonEmpty | confluence_knowledge_base.py:138 | The filter `if c` keeps exactly the non-empty entries and never lengthens the list; it is empty exactly when every entry is. |
| Text.NonEmptyConcat | confluence_knowledge_base.py:138 | The filter of a concatenation is the concatenation of the filters. With the length bound this fixes it as the filter that keeps order and repeats. |
| Text.NatToString | confluence_knowledge_base.py:188 | `str(i)` for a chunk number: a non-empty run of decimal digits with no leading zero. `Text.ParseNatToString` is its inverse. |
| Text.NatToStringInjective | confluence_knowledge_base.py:188 | Distinct chunk numbers have distinct decimal forms. |
| Text.ParseNatToString | confluence_knowledge_base.py:188 | Reading back the decimal form of a chunk number gives the number. |
| Whitespace.IsLineBreak | confluence_knowledge_base.py:109 | The line boundaries of `str.splitlines()`, written out character by character; `\r\n` counts as one boundary (`Whitespace.AfterBreak`). |
| Whitespace.SplitLines | confluence_knowledge_base.py:109 | `str.splitlines()`: no lines exactly for the empty text. The rest of its contract is in `Whitespace.SplitLinesShape` and `Whitespace.SplitLinesCovers`. |
| Whitespace.SplitLinesShape | confluence_knowledge_base.py:109 | The lines of `splitlines()` contain no line boundary, and every line is made of characters of the text. |
| Whitespace.SplitLinesCovers | confluence_knowledge_base.py:109 | Every character that is not a line boundary lands in some line. |
| Whitespace.JoinLines | confluence_knowledge_base.py:111 | Splitting lines joined with line feeds gives the lines back when none is empty or holds a boundary. |
| Text.NonSpace | confluence_knowledge_base.py:109-111 | The visible (non-whitespace) characters of a string, in order. A character is in it exactly when it is a visible character of the string. |
| Text.NonSpaceStrip | confluence_knowledge_base.py:109-110 | `strip()` removes no visible character. |
| Text.NonSpaceSplit | confluence_knowledge_base.py:110 | Splitting on a whitespace separator loses no visible character. |
| Text.NonSpaceJoin | confluence_knowledge_base.py:111 | Joining with a whitespace separator adds no visible character. |
| Text.NonSpaceOfNonEmpty | confluence_knowledge_base.py:111 | The `if chunk` filter loses no visible character. |
| Whitespace.LinesKeepText | confluence_knowledge_base.py:109 | `splitlines()` drops only line boundaries: the lines hold the text's visible characters in order. |
| Whitespace.Phrases | confluence_knowledge_base.py:110 | One stripped line split on double spaces, each piece stripped. Its contract is carried by `Whitespace.PhrasesClean` and `Whitespace.PhrasesKeepText`. |
| Whitespace.PhrasesKeepText | confluence_knowledge_base.py:109-110 | A line's phrases hold exactly the line's visible characters, in order. |
| Whitespace.AllPhrasesKeepText | confluence_knowledge_base.py:109-110 | The phrases of all lines hold the lines' visible characters, in order. |
| Whitespace.Pieces | confluence_knowledge_base.py:109-111 | The non-empty stripped phrases of every stripped line, in order: the lines of the cleaned text. The contract is carried by `Whitespace.PiecesClean`, `Whitespace.AllSpaceIffNoPieces` and `Whitespace.PiecesKeepText`. |
| Whitespace.PiecesKeepText | confluence_knowledge_base.py:109-111 | The kept phrases hold every visible character of the text, in order, and no other visible character. |
| Whitespace.PiecesClean | confluence_knowledge_base.py:109-111 | Every kept phrase is non-empty, a single line, stripped, and free of double spaces. |
| Whitespace.AllSpaceIffNoPieces | confluence_knowledge_base.py:109-111 | A text keeps no phrase if and only if it is all whitespace. |
| Whitespace.VisibleCharKept | confluence_knowledge_base.py:109-111 | A text with any non-whitespace character keeps at least one phrase. |
| Whitespace.Normalize | confluence_knowledge_base.py:109-111 | The result is empty exactly for blank input. It never contains an empty line, and never starts or ends with a line feed. It never contains two spaces in a row, and every line is stripped. It changes only whitespace: its visible characters are those of the input, in the same order, so every visible character of the input appears in it. |
| Whitespace.NormalizeIdempotent | confluence_knowledge_base.py:109-111 | Cleaning already cleaned text changes nothing. |
| Indexer.ChunkId | confluence_knowledge_base.py:188 | A chunk id is the page id, then `_chunk_`, then a non-empty run of decimal digits. |
| Indexer.ChunkIdInjective | confluence_knowledge_base.py:188 | `f"{page_id}_chunk_{i}"` is equal for two pairs if and only if both page id and chunk number are equal. |
| Indexer.PageChunks | confluence_knowledge_base.py:181-184 | A page's chunks are `chunk_text` of its `clean_html` text. Every chunk is non-empty and fits the chunk size, and a page whose text is blank gives no chunk. |
| Indexer.PageRecords | confluence_knowledge_base.py:187-198 | The records of one page, one per chunk in `enumerate` order. Their contract is carried by `Indexer.RecordAt`. |
| Indexer.Records | confluence_knowledge_base.py:179-198 | The records of all pages, page after page. Their contract is carried by `Indexer.RecordAt`, `Indexer.Locate` and `Indexer.RecordCount`. |
| Indexer.RecordAt | confluence_knowledge_base.py:179-198 | The record at position `Offset(j) + i` is chunk `i` of page `j`. It carries that page's id, title, space and url, chunk index `i`, and the page's chunk count. |
| Indexer.Locate | confluence_knowledge_base.py:179-198 | Every record position belongs to one page and one of its chunks. |
| Indexer.RecordCount | confluence_knowledge_base.py:179-198 | There are as many records as chunks over all pages. |
| Indexer.UniqueIds | confluence_knowledge_base.py:179-198 | Pages with distinct ids give records with distinct ids. |
| Indexer.RepeatedPageRepeatsIds | confluence_knowledge_base.py:179-198 | A page that appears twice with chunks gives two records with the same id. |
| Indexer.Batches | confluence_knowledge_base.py:204-208 | `[xs[i:i + 100] for i in range(0, len(xs), 100)]`. Its contract is carried by `Indexer.BatchesShape`. |
| Indexer.BatchesShape | confluence_knowledge_base.py:204-208 | The batches concatenate back to the records in order. Each holds between 1 and 100 records, and all but the last hold exactly 100. |
| Indexer.Insert | confluence_knowledge_base.py:210-214 | Adding a batch stores every id of the batch and keeps every entry already stored. |
| Indexer.InsertBatches | confluence_knowledge_base.py:204-214 | Adds the batches in order. Its contract is carried by `Indexer.InsertBatchesFlatten`. |
| Indexer.InsertBatchesFlatten | confluence_knowledge_base.py:204-214 | Adding the batches one after another is adding all the records at once. |
| Indexer.InsertDistinct | confluence_knowledge_base.py:210-214 | Records with fresh, distinct ids are each stored under their own id with their text and metadata. |
| Indexer.AllRecords | confluence_knowledge_base.py:179-198 | The records `index_pages` builds, from each page's chunks. `Indexer.IndexPages` and `Indexer.IndexContents` are stated over it. |
| Indexer.IndexPages | confluence_knowledge_base.py:164-215 | Fails exactly on an invalid chunk configuration. Otherwise the rebuilt collection holds exactly the ids of the records. |
| Indexer.IndexContents | confluence_knowledge_base.py:164-215 | With distinct page ids, every record is stored under its id with its own text and metadata. |
| Pagination.Paginate | confluence_knowledge_base.py:53-90 | The offset/limit loop with a request budget. Its contract is carried by `Pagination.PaginateStops`, `Pagination.SliceServerFetchesAll` and `Pagination.ListAll`. |
| Pagination.PaginateStops | confluence_knowledge_base.py:53-90 | A finished loop made requests at offsets `start + k * limit`. Every answer but the last was a full page, the last was empty or short, and the result is their concatenation. |
| Pagination.SliceServerFetchesAll | confluence_knowledge_base.py:53-90 | Against a server over a fixed list, with enough requests, the loop returns exactly the rest of the list, in order. |
| Pagination.ListAll | find_space_keys.py:22-58 | The `while` loop computes the paginated result, asking for offsets 0, `limit`, `2 * limit`, and so on. |
| Pagination.KeysToFetch | confluence_knowledge_base.py:45-47 | The keys fetched are exactly the non-blank configured keys, unchanged, and there are no more of them than configured keys. |
| Pagination.KeysToFetchConcat | confluence_knowledge_base.py:45-47 | The kept keys of a concatenation are the kept keys of each part in turn. With the length bound this fixes the order and the repeats. |
| Pagination.FetchAllPages | confluence_knowledge_base.py:41-94 | The pages of every non-blank key, key after key. Its contract is carried by `Pagination.FetchSkipsBlank` and `Pagination.FetchAllFromLists`. |
| Pagination.FetchStep | confluence_knowledge_base.py:53-90 | One non-blank key's pass: its pages, paginated from offset 0, in front of the rest. Its contract is carried by `Pagination.FetchSkipsBlank` and `Pagination.FetchAllFromLists`. |
| Pagination.FetchSkipsBlank | confluence_knowledge_base.py:45-47 | Blank keys contribute nothing: fetching all keys is fetching the kept ones. |
| Pagination.FetchAllFromLists | confluence_knowledge_base.py:41-94 | With every space served from a fixed list and enough requests, the pages are all pages of the non-blank keys, space after space. |
| Startup.SpacesFromEnv | confluence_knowledge_base.py:27 | The configured keys are at least one piece, none contains a comma, and joining them with commas gives the variable back. |
| Startup.SpacesFromJoin | confluence_knowledge_base.py:27 | Writing a non-empty list of comma-free keys into the variable reads back the same list. |
| Startup.SpacesConfigured | confluence_knowledge_base.py:367 | The start-up check on the parsed keys: a first key exists and is not empty. It is characterised by `Startup.ConfiguredIff`. |
| Startup.ConfiguredIff | confluence_knowledge_base.py:367-371 | The start-up check passes if and only if the variable is non-empty and does not start with a comma. |
| Startup.NeedsReindex | confluence_knowledge_base.py:244-255 | No rebuild happens if and only if metadata exists and the stored keys and the configured keys are the same set. A missing key list counts as empty. |
| Startup.DecisionIgnoresOrder | confluence_knowledge_base.py:253 | Reordering or repeating the configured keys does not change the decision. |
| Startup.Rebuilt | confluence_knowledge_base.py:263-268 | Metadata written after a build records the configured keys and the page count, and it asks for no further rebuild. |
| Startup.Load | confluence_knowledge_base.py:243-268 | Loading rebuilds exactly when the decision asks for it and otherwise keeps the stored metadata. Afterwards, no rebuild is needed. |
| Startup.LoadSettles | confluence_knowledge_base.py:243-268 | A second load with the same configuration changes nothing. |
| SpaceFinder.InfoOf | find_space_keys.py:48-53 | A listed space kept as key, name, type and description. The description default is carried by `SpaceFinder.DescriptionOf`. |
| SpaceFinder.DescriptionOf | find_space_keys.py:52 | The description is `description.plain.value` when that whole path is present, and "N/A" when any level is missing. |
| SpaceFinder.ListAllSpaces | find_space_keys.py:17-60 | Every listed space, in order, is read into key, name, type and description. Requests are made at offsets 0, 100, 200, and so on. |
| SpaceFinder.ListsEverySpace | find_space_keys.py:26-58 | Against a server over a fixed list of spaces, with enough requests, the listing is that list, in order. |
| SpaceFinder.Shown | find_space_keys.py:89-91 | "N/A" is not printed; any other description is printed truncated. |
| SpaceFinder.Truncate | find_space_keys.py:90 | A description of at most 100 characters is unchanged. A longer one becomes its first 100 characters plus "...", 103 characters in all. |
| SpaceFinder.TruncateBounds | find_space_keys.py:90 | A shown description has at most 103 characters and starts with the description's own first characters. |
| SpaceFinder.TruncateIdempotent | find_space_keys.py:90 | Truncating a truncated description changes nothing. |
| SpaceFinder.NonPersonal | find_space_keys.py:100 | The filter keeps exactly the spaces whose type is not `personal`. It is empty exactly when all spaces are personal. |
| SpaceFinder.NonPersonalConcat | find_space_keys.py:100 | The filter keeps the original order. |
| SpaceFinder.Suggest | find_space_keys.py:100-106 | If any space is not personal, the suggestion is the keys of the first five such spaces in order; otherwise it is the keys of the first three spaces. It is empty only when there are no spaces. |
| SpaceFinder.SuggestedValue | find_space_keys.py:103-106 | The suggested keys joined with commas. Its contract is carried by `SpaceFinder.SuggestionRoundTrip`. |
| SpaceFinder.SuggestionRoundTrip | find_space_keys.py:103 | The printed value, read back as `CONFLUENCE_SPACES`, gives exactly the suggested keys. The start-up check accepts it unless the first key is empty. |

## Left out

- HTTP: authentication, JSON decoding, `raise_for_status`, the half-second pause between requests and error messages. A server is a function from offset and limit to a list of results.
- The pagination loops carry a request budget so that they are total; a server that never sends a short page makes the real loop run forever, which the model reports as `None`.
- The construction of page and space records from the JSON (`page["body"]["storage"]["value"]`, the page url and `url.rstrip('/')`). Pages and spaces are inputs already in record form, and a description that is JSON `null` is not modelled (the code would fail on it).
- BeautifulSoup parsing and the removal of script and style elements: `Chunking.extract` stands for the text the parser extracts.
- The embedding model, the vector database's storage format, cosine search and the result formatting of the MCP tools and resources; `confluence_mcp_server.py` is not part of this model.
- Indexer.Insert: a repeated id keeps the first entry; what the vector database does with a repeated id is not modelled.
- Reading and writing `metadata.json`, `time.time()` and the printed progress messages; the page count and the timestamp are parameters of `Startup.Rebuilt`.
- The missing-credentials checks (confluence_knowledge_base.py:361-365, find_space_keys.py:65-71), which only test environment variables for presence.
- The reindex decision runs when the module is imported, before the configuration checks of the `__main__` block; the model keeps the two apart and does not model that ordering.
- Chunker.ChunkText: a negative `chunk_size` is not modelled (the size is a natural number).
- Chunker.WindowEnd: the floating-point test `break_point > chunk_size * 0.5` (confluence_knowledge_base.py:131) is modelled as the integer test `2 * break_point > chunk_size`. The two agree for every `chunk_size` up to 2^53, where `chunk_size * 0.5` is exact.
- Python strings can hold lone surrogate code points (U+D800 to U+DFFF); Dafny's `char` is a Unicode scalar value, so text holding them is not modelled.

## Findings

| source | as written | input that shows it | evidently intended | confidence | as-written member | corrected member |
|---|---|---|---|---|---|---|
| confluence_knowledge_base.py:116-136 | `chunk_text` never checks its configuration; the next start `end - overlap` can stay at or fall behind the current start, and the loop then never ends | `chunk_size = 10`, `overlap = 8`, an 11-character text with `.` at index 7 and no other boundary: the window is cut to end 8, and the next start is 0 again | reject a chunk configuration on which the loop can fail to advance | not executed | Chunker.StallWhenInvalid | Chunker.ChunkText |

=== FILE: chunker.dfy ===
/** `ConfluenceIndexer.chunk_text`: the sliding-window splitter that cuts a page's normalised text
    into overlapping passages, preferring to end a passage just after a full stop or line feed. */
module Chunker {
  import opened Wrappers
  import opened Text

  /** Characters per chunk and characters shared by consecutive chunks, as configured. */
  const ChunkSize: nat := 1000
  const ChunkOverlap: int := 200

  /** The shipped configuration never reaches the `InvalidConfiguration` branch. */
  lemma ConfiguredIsValid()
    ensures ValidConfig(ChunkSize, ChunkOverlap)
  {
  }

  datatype ConfigError = InvalidConfiguration(size: nat, overlap: int)

  /** A raw window `[start, end)` of the text; `end` may lie past the end of the text. */
  datatype Window = Window(start: nat, end: nat)

  /** The characters a window prefers to end on. */
  predicate IsBoundary(c: char) {
    c == '.' || c == '\n'
  }

  /** The configurations under which every step of the loop moves the window forward on every
      text (`AdvancesIff`): the overlap is below the size and at most one past half of it. */
  predicate ValidConfig(size: nat, overlap: int) {
    overlap < size && 2 * overlap <= size + 2
  }

  /** `max(chunk.rfind('.'), chunk.rfind('\n'))`: the index of the last boundary character, or -1. */
  function LastBoundary(chunk: string): (bp: int)
    ensures -1 <= bp < |chunk|
    ensures bp != -1 ==> IsBoundary(chunk[bp])
    ensures forall k :: bp < k < |chunk| ==> !IsBoundary(chunk[k])
  {
    Max(RFind(chunk, '.'), RFind(chunk, '\n'))
  }

  /** The window starting at `start` is cut back to end just after its character at offset `bp`:
      the text goes on past the window, `bp` lies past the window's halfway point, and it is the
      window's last boundary character. */
  predicate CutPoint(text: string, start: nat, size: nat, bp: int) {
    && start + size < |text|
    && 0 <= bp < size
    && 2 * bp > size
    && IsBoundary(text[start + bp])
    && forall k :: start + bp < k < start + size ==> !IsBoundary(text[k])
  }

  /** Where the window starting at `start` ends: just after its cut point if it has one, and
      `start + size` otherwise. */
  function WindowEnd(text: string, start: nat, size: nat): (end: nat)
    requires start <= |text|
    ensures start <= end <= start + size
    ensures end == start + size || CutPoint(text, start, size, end - 1 - start)
    ensures forall bp :: CutPoint(text, start, size, bp) ==> end == start + bp + 1
  {
    var end := start + size;
    if end < |text| then
      var chunk := text[start..end];
      var bp := LastBoundary(chunk);
      assert forall k :: 0 <= k < size ==> chunk[k] == text[start + k];
      CutPointIsLast(text, start, size, bp);
      if 2 * bp > size then start + bp + 1 else end
    else
      end
  }

  /** The last boundary character of a window is its only candidate cut point. */
  lemma CutPointIsLast(text: string, start: nat, size: nat, last: int)
    requires start + size < |text|
    requires last == LastBoundary(text[start..start + size])
    ensures 2 * last > size ==> CutPoint(text, start, size, last)
    ensures forall bp :: CutPoint(text, start, size, bp) ==> bp == last
  {
    var chunk := text[start..start + size];
    assert forall k :: 0 <= k < size ==> chunk[k] == text[start + k];
    forall bp | CutPoint(text, start, size, bp)
      ensures bp == last
    {
      assert IsBoundary(chunk[bp]);
      if last != -1 {
        assert IsBoundary(text[start + last]);
      }
    }
  }

  /** `end - overlap`: where the loop starts its next window. */
  function NextStart(text: string, start: nat, size: nat, overlap: int): (next: int)
    requires start <= |text|
    ensures ValidConfig(size, overlap) ==> next > start
  {
    WindowEnd(text, start, size) - overlap
  }

  /** The raw windows the loop visits from `start` on, in order. */
  function Windows(text: string, start: nat, size: nat, overlap: int): (ws: seq<Window>)
    requires ValidConfig(size, overlap)
    decreases |text| - start
  {
    if start >= |text| then []
    else [Window(start, WindowEnd(text, start, size))] + Windows(text, NextStart(text, start, size, overlap), size, overlap)
  }

  /** Python's `text[w.start:w.end]`. */
  function Slice(text: string, w: Window): string
    requires w.start <= w.end && w.start <= |text|
  {
    text[w.start..Min(w.end, |text|)]
  }

  predicate WellPlaced(text: string, ws: seq<Window>) {
    forall k :: 0 <= k < |ws| ==> ws[k].start <= ws[k].end && ws[k].start <= |text|
  }

  /** Each window's text, stripped: the list the loop builds before filtering. */
  function StrippedSlices(text: string, ws: seq<Window>): (cs: seq<string>)
    requires WellPlaced(text, ws)
  {
    seq(|ws|, k requires 0 <= k < |ws| => Strip(Slice(text, ws[k])))
  }

  /** The chunks of `text` under a configuration on which the loop terminates. */
  function Chunks(text: string, size: nat, overlap: int): seq<string>
    requires ValidConfig(size, overlap)
  {
    WindowsShape(text, 0, size, overlap);
    NonEmpty(StrippedSlices(text, Windows(text, 0, size, overlap)))
  }

  /** `chunk_text(text, size, overlap)`, failing on a configuration that could loop forever. */
  function ChunkText(text: string, size: nat, overlap: int): (r: Result<seq<string>, ConfigError>)
    ensures r.Failure? <==> !ValidConfig(size, overlap)
    ensures r.Failure? ==> r.error == InvalidConfiguration(size, overlap)
    ensures r.Success? ==> forall c <- r.value :: 0 < |c| <= size
    ensures r.Success? && text == "" ==> r.value == []
  {
    if !ValidConfig(size, overlap) then Failure(InvalidConfiguration(size, overlap))
    else
      ChunksShape(text, size, overlap);
      Success(Chunks(text, size, overlap))
  }

  /** The shape of the windows: the first starts at `start`, each next one starts `overlap` before
      the previous end, every window starts inside the text and is no longer than
      `size`, and the last one's next start lies past the end of the text. */
  lemma WindowsShape(text: string, start: nat, size: nat, overlap: int)
    requires ValidConfig(size, overlap)
    ensures var ws := Windows(text, start, size, overlap);
      && (ws == [] <==> start >= |text|)
      && (ws != [] ==> ws[0].start == start && ws[|ws| - 1].end - overlap >= |text|)
      && WellPlaced(text, ws)
      && (forall k :: 0 <= k < |ws| ==>
            ws[k].start < |text| && ws[k].start <= ws[k].end <= ws[k].start + size
            && ws[k].start + overlap < ws[k].end && ws[k].end == WindowEnd(text, ws[k].start, size))
      && (forall k :: 0 < k < |ws| ==> ws[k].start == ws[k - 1].end - overlap)
  {
    WindowsEach(text, start, size, overlap);
    WindowsLinked(text, start, size, overlap);
    WindowsReachEnd(text, start, size, overlap);
  }

  /** Each window starts inside the text, ends where `WindowEnd` says, and reaches past its start by
      more than the overlap. */
  lemma {:induction false} WindowsEach(text: string, start: nat, size: nat, overlap: int)
    requires ValidConfig(size, overlap)
    ensures var ws := Windows(text, start, size, overlap);
      forall k :: 0 <= k < |ws| ==>
        ws[k].start < |text| && ws[k].start <= ws[k].end <= ws[k].start + size
        && ws[k].start + overlap < ws[k].end && ws[k].end == WindowEnd(text, ws[k].start, size)
    decreases |text| - start
  {
    if start < |text| {
      var next := NextStart(text, start, size, overlap);
      WindowsEach(text, next, size, overlap);
      WindowsStep(text, start, size, overlap);
      var ws, rest := Windows(text, start, size, overlap), Windows(text, next, size, overlap);
      assert forall k :: 0 < k < |ws| ==> ws[k] == rest[k - 1];
    }
  }

  /** Each window after the first starts `overlap` before the previous one's end. */
  lemma {:induction false} WindowsLinked(text: string, start: nat, size: nat, overlap: int)
    requires ValidConfig(size, overlap)
    ensures var ws := Windows(text, start, size, overlap);
      forall k :: 0 < k < |ws| ==> ws[k].start == ws[k - 1].end - overlap
    decreases |text| - start
  {
    if start < |text| {
      var next := NextStart(text, start, size, overlap);
      WindowsLinked(text, next, size, overlap);
      WindowsStep(text, start, size, overlap);
      var ws, rest := Windows(text, start, size, overlap), Windows(text, next, size, overlap);
      assert forall k :: 0 < k < |ws| ==> ws[k] == rest[k - 1];
      if |rest| > 0 {
        WindowsStep(text, next, size, overlap);
        assert ws[1].start == next;
      }
    }
  }

  /** There are windows exactly when `start` is inside the text, the first starts at `start`, and
      the last one's next start lies past the end of the text. */
  lemma {:induction false} WindowsReachEnd(text: string, start: nat, size: nat, overlap: int)
    requires ValidConfig(size, overlap)
    ensures var ws := Windows(text, start, size, overlap);
      && (ws == [] <==> start >= |text|)
      && (ws != [] ==> ws[0].start == start && ws[|ws| - 1].end - overlap >= |text|)
    decreases |text| - start
  {
    if start < |text| {
      var next := NextStart(text, start, size, overlap);
      WindowsReachEnd(text, next, size, overlap);
      WindowsStep(text, start, size, overlap);
    }
  }

  /** Every chunk is non-empty and at most `size` characters long, and the chunks and the
      non-blank stripped windows are the same strings; an empty text has no chunk. The order is
      that of the windows because `Chunks` is the `NonEmpty` filter (see `Text.NonEmptyConcat`). */
  lemma ChunksShape(text: string, size: nat, overlap: int)
    requires ValidConfig(size, overlap)
    ensures forall c <- Chunks(text, size, overlap) :: 0 < |c| <= size
    ensures WellPlaced(text, Windows(text, 0, size, overlap))
    ensures var raw := StrippedSlices(text, Windows(text, 0, size, overlap));
      && (forall c <- Chunks(text, size, overlap) :: c in raw)
      && (forall c <- raw :: c != "" ==> c in Chunks(text, size, overlap))
    ensures text == "" ==> Chunks(text, size, overlap) == []
  {
    WindowsShape(text, 0, size, overlap);
    StrippedSlicesBounded(text, Windows(text, 0, size, overlap), size);
  }

  /** Stripped window texts are no longer than the windows. */
  lemma StrippedSlicesBounded(text: string, ws: seq<Window>, size: nat)
    requires WellPlaced(text, ws)
    requires forall k :: 0 <= k < |ws| ==> ws[k].end <= ws[k].start + size
    ensures forall c <- StrippedSlices(text, ws) :: |c| <= size
  {
    var raw := StrippedSlices(text, ws);
    forall c | c in raw
      ensures |c| <= size
    {
      var k :| 0 <= k < |raw| && raw[k] == c;
      assert |Slice(text, ws[k])| <= ws[k].end - ws[k].start;
    }
  }

  /** Every character of the text lies in some window: the windows leave no gap. */
  lemma {:induction false} WindowsCover(text: string, start: nat, size: nat, overlap: int, i: nat)
    returns (k: nat)
    requires ValidConfig(size, overlap) && 0 <= overlap && start <= i < |text|
    ensures k < |Windows(text, start, size, overlap)|
    ensures Windows(text, start, size, overlap)[k].start <= i < Windows(text, start, size, overlap)[k].end
    decreases |text| - start
  {
    var ws := Windows(text, start, size, overlap);
    var end := WindowEnd(text, start, size);
    if i < end {
      k := 0;
    } else {
      var next := NextStart(text, start, size, overlap);
      var k1 := WindowsCover(text, next, size, overlap, i);
      assert ws == [Window(start, end)] + Windows(text, next, size, overlap);
      k := k1 + 1;
    }
  }

  /** Consecutive windows share exactly `overlap` characters: the last `overlap` characters of one
      window's text are the first `overlap` characters of the next, as long as the first window
      ends inside the text. */
  lemma WindowsOverlap(text: string, size: nat, overlap: int, k: nat)
    requires ValidConfig(size, overlap) && 0 <= overlap
    requires 0 < k < |Windows(text, 0, size, overlap)|
    requires Windows(text, 0, size, overlap)[k - 1].end <= |text|
    ensures WellPlaced(text, Windows(text, 0, size, overlap))
    ensures SharedText(text, Windows(text, 0, size, overlap)[k - 1], Windows(text, 0, size, overlap)[k], overlap)
  {
    WindowsEach(text, 0, size, overlap);
    WindowsLinked(text, 0, size, overlap);
    var ws := Windows(text, 0, size, overlap);
    var w0, w1 := ws[k - 1], ws[k];
    assert w1.start + overlap == w0.end;
    assert w1.start + overlap < w1.end;
    SliceOverlap(text, w0, w1, overlap);
  }

  /** The text of `w0` ends with `n` characters that the text of `w1` starts with. */
  predicate SharedText(text: string, w0: Window, w1: Window, n: nat) {
    && w0.start <= w0.end && w0.start <= |text|
    && w1.start <= w1.end && w1.start <= |text|
    && var before, after := Slice(text, w0), Slice(text, w1);
    && n <= |before| && n <= |after|
    && before[|before| - n..] == after[..n]
  }

  /** Two windows, the second starting `overlap` before the first one's end inside the text and
      reaching at least `overlap` further, share `overlap` characters. */
  lemma SliceOverlap(text: string, w0: Window, w1: Window, overlap: nat)
    requires w0.start < w1.start && w1.start + overlap == w0.end <= |text|
    requires w1.start + overlap < w1.end
    ensures SharedText(text, w0, w1, overlap)
  {
    var before, after := Slice(text, w0), Slice(text, w1);
    assert before == text[w0.start..w0.end];
    var u, v := before[|before| - overlap..], after[..overlap];
    assert forall j :: 0 <= j < overlap ==> u[j] == text[w1.start + j] == v[j];
  }

  /** A visible text of at most `size - overlap` characters is one chunk: the whole text, stripped. */
  lemma SingleChunk(text: string, size: nat, overlap: int)
    requires ValidConfig(size, overlap) && 0 <= overlap
    requires 0 < |text| <= size - overlap && !AllSpace(text)
    ensures Chunks(text, size, overlap) == [Strip(text)]
  {
    assert WindowEnd(text, 0, size) == size;
    assert Windows(text, size - overlap, size, overlap) == [];
    assert Windows(text, 0, size, overlap) == [Window(0, size)];
    assert Slice(text, Window(0, size)) == text;
    assert StrippedSlices(text, [Window(0, size)]) == [Strip(text)];
  }

  /** A text longer than `size - overlap` but no longer than `size` is visited twice: once whole and
      once from `size - overlap` on, so its tail comes back as a second chunk. */
  lemma ShortTextTail(text: string, size: nat, overlap: int)
    requires ValidConfig(size, overlap) && 0 <= overlap && 2 * overlap <= size
    requires size - overlap < |text| <= size
    ensures Windows(text, 0, size, overlap) == [Window(0, size), Window(size - overlap, size - overlap + size)]
    ensures WellPlaced(text, Windows(text, 0, size, overlap))
    ensures StrippedSlices(text, Windows(text, 0, size, overlap)) == [Strip(text), Strip(text[size - overlap..])]
  {
    TwoWindows(text, size, overlap);
    var w0, w1 := Window(0, size), Window(size - overlap, size - overlap + size);
    assert Slice(text, w0) == text;
    assert Slice(text, w1) == text[size - overlap..];
  }

  lemma TwoWindows(text: string, size: nat, overlap: int)
    requires ValidConfig(size, overlap) && 0 <= overlap && 2 * overlap <= size
    requires size - overlap < |text| <= size
    ensures Windows(text, 0, size, overlap) == [Window(0, size), Window(size - overlap, size - overlap + size)]
  {
    var s1 := size - overlap;
    var w0, w1 := Window(0, size), Window(s1, s1 + size);
    assert WindowEnd(text, 0, size) == size;
    assert WindowEnd(text, s1, size) == s1 + size;
    WindowsStep(text, s1, size, overlap);
    assert Windows(text, s1 + size - overlap, size, overlap) == [];
    assert Windows(text, s1, size, overlap) == [w1];
    WindowsStep(text, 0, size, overlap);
  }

  /** `end - overlap` stays put or moves back on some text exactly when the configuration is not
      valid: a valid configuration is the precise condition for the loop to always advance. */
  lemma AdvancesIff(size: nat, overlap: int)
    ensures ValidConfig(size, overlap) <==>
      forall text: string, start: nat | start < |text| :: NextStart(text, start, size, overlap) > start
  {
    if !ValidConfig(size, overlap) {
      var text, start := StallWhenInvalid(size, overlap);
    }
  }

  /** Outside a valid configuration some text makes the first step not advance; when the overlap is
      at most the size the start stays where it is, so the loop repeats the same window forever. */
  lemma StallWhenInvalid(size: nat, overlap: int) returns (text: string, start: nat)
    requires !ValidConfig(size, overlap)
    ensures start < |text| && NextStart(text, start, size, overlap) <= start
    ensures overlap <= size ==> NextStart(text, start, size, overlap) == start
  {
    start := 0;
    if overlap >= size {
      text := seq(size + 1, _ => 'a');
      var end := WindowEnd(text, 0, size);
      assert !CutPoint(text, 0, size, end as int - 1);
    } else {
      var bp := overlap - 1;
      text := seq(size + 1, k => if k == bp then '.' else 'a');
      assert CutPoint(text, 0, size, bp);
    }
  }

  /** One step of the loop: the window at `start`, then the windows from the next start. */
  lemma WindowsStep(text: string, start: nat, size: nat, overlap: int)
    requires ValidConfig(size, overlap) && start < |text|
    ensures Windows(text, start, size, overlap)
      == [Window(start, WindowEnd(text, start, size))] + Windows(text, NextStart(text, start, size, overlap), size, overlap)
  {
  }

  /** Stripping one more window's text appends one more entry. */
  lemma StrippedSlicesSnoc(text: string, ws: seq<Window>, w: Window)
    requires WellPlaced(text, ws) && w.start <= w.end && w.start <= |text|
    ensures WellPlaced(text, ws + [w])
    ensures StrippedSlices(text, ws + [w]) == StrippedSlices(text, ws) + [Strip(Slice(text, w))]
  {
  }

  /** The body of the loop: the window at `start`, cut back at a boundary character past its
      halfway point when the text goes on, and where it ends. */
  method NextWindow(text: string, start: nat, size: nat) returns (chunk: string, end: nat)
    requires start < |text|
    ensures end == WindowEnd(text, start, size)
    ensures chunk == Slice(text, Window(start, end))
  {
    var stop := start + size;
    chunk := text[start..Min(stop, |text|)];
    end := stop;
    if stop < |text| {
      assert chunk == text[start..stop];
      var bp := LastBoundary(chunk);
      assert WindowEnd(text, start, size) == if 2 * bp > size then start + bp + 1 else stop;
      if 2 * bp > size {
        chunk := chunk[..bp + 1];
        end := start + bp + 1;
        assert chunk == text[start..end];
      }
    }
    assert end < |text| ==> Min(end, |text|) == end;
  }

  /** The loop of `chunk_text` as written, proved to compute `ChunkText`. */
  method ChunkTextLoop(text: string, size: nat, overlap: int) returns (r: Result<seq<string>, ConfigError>)
    ensures r == ChunkText(text, size, overlap)
  {
    if !ValidConfig(size, overlap) {
      return Failure(InvalidConfiguration(size, overlap));
    }
    var raw := StrippedWindowsLoop(text, size, overlap);
    r := Success(NonEmpty(raw));
  }

  /** The `while` loop of `chunk_text`: the stripped text of every window, in order. */
  method StrippedWindowsLoop(text: string, size: nat, overlap: int) returns (raw: seq<string>)
    requires ValidConfig(size, overlap)
    ensures WellPlaced(text, Windows(text, 0, size, overlap))
    ensures raw == StrippedSlices(text, Windows(text, 0, size, overlap))
  {
    raw := [];
    ghost var done: seq<Window> := [];
    var start: nat := 0;
    while start < |text|
      invariant done + Windows(text, start, size, overlap) == Windows(text, 0, size, overlap)
      invariant WellPlaced(text, done) && raw == StrippedSlices(text, done)
      decreases |text| - start
    {
      var chunk, end := NextWindow(text, start, size);
      ghost var w := Window(start, end);
      var next := end - overlap;
      assert next == NextStart(text, start, size, overlap) > start;
      WindowsStep(text, start, size, overlap);
      assert done + Windows(text, start, size, overlap) == (done + [w]) + Windows(text, next, size, overlap);
      StrippedSlicesSnoc(text, done, w);
      raw := raw + [Strip(chunk)];
      done := done + [w];
      start := next;
    }
    assert Windows(text, start, size, overlap) == [];
    assert done == Windows(text, 0, size, overlap);
  }
}

=== FILE: indexer.dfy ===
/** `VectorStore.index_pages`: every page's normalised text is chunked, each chunk becomes a record
    with an id and provenance metadata, and the records are added to a freshly emptied collection
    in batches of 100. */
module Indexer {
  import opened Wrappers
  import opened Text
  import Whitespace
  import Chunker

  const BatchSize: nat := 100

  /** A fetched page, as `fetch_all_pages` assembles it; `content` is the page's storage HTML. */
  datatype Page = Page(id: string, title: string, space: string, content: string, url: string, version: int)

  /** The metadata stored with a chunk. */
  datatype ChunkMeta = ChunkMeta(
    pageId: string, pageTitle: string, space: string, url: string, chunkIndex: nat, totalChunks: nat)

  /** One entry of the three parallel lists `all_ids`, `all_chunks` and `all_metadata`. */
  datatype Record = Record(id: string, text: string, meta: ChunkMeta)

  /** How a page becomes chunks. `extract` stands for the HTML parser's text extraction
      (`BeautifulSoup(...).get_text(separator='\n')` after dropping scripts and styles). */
  datatype Chunking = Chunking(extract: string -> string, size: nat, overlap: int)

  predicate Valid(cfg: Chunking) {
    Chunker.ValidConfig(cfg.size, cfg.overlap)
  }

  /** The separator between a page id and a chunk number. */
  const ChunkTag: string := "_chunk_"

  /** `f"{page_id}_chunk_{i}"`. */
  function ChunkId(pageId: string, i: nat): (id: string)
    ensures |id| > |pageId| + |ChunkTag|
    ensures id[..|pageId| + |ChunkTag|] == pageId + ChunkTag
    ensures AllDigits(id[|pageId| + |ChunkTag|..])
  {
    var id := pageId + ChunkTag + NatToString(i);
    assert id[|pageId| + |ChunkTag|..] == NatToString(i);
    id
  }

  /** The chunks of one page: its extracted text, whitespace-normalised, then chunked. Every
      chunk is non-empty and fits the chunk size, and a page whose text is blank has none. */
  function PageChunks(p: Page, cfg: Chunking): (r: seq<string>)
    requires Valid(cfg)
    ensures forall c <- r :: 0 < |c| <= cfg.size
    ensures AllSpace(cfg.extract(p.content)) ==> r == []
  {
    var clean := Whitespace.Normalize(cfg.extract(p.content));
    Chunker.ChunksShape(clean, cfg.size, cfg.overlap);
    Chunker.Chunks(clean, cfg.size, cfg.overlap)
  }

  /** The records of one page, in chunk order. */
  function PageRecords(p: Page, chunks: seq<string>): seq<Record> {
    seq(|chunks|, i requires 0 <= i < |chunks| =>
      Record(ChunkId(p.id, i), chunks[i], ChunkMeta(p.id, p.title, p.space, p.url, i, |chunks|)))
  }

  /** The chunks of every page, page by page. */
  function ChunkLists(pages: seq<Page>, cfg: Chunking): (cs: seq<seq<string>>)
    requires Valid(cfg)
    ensures |cs| == |pages| && forall j :: 0 <= j < |pages| ==> cs[j] == PageChunks(pages[j], cfg)
  {
    seq(|pages|, j requires 0 <= j < |pages| => PageChunks(pages[j], cfg))
  }

  /** The records of all pages, page after page, given each page's chunks. */
  function Records(pages: seq<Page>, chunks: seq<seq<string>>): seq<Record>
    requires |pages| == |chunks|
  {
    if pages == [] then [] else PageRecords(pages[0], chunks[0]) + Records(pages[1..], chunks[1..])
  }

  /** The records `index_pages` builds. */
  function AllRecords(pages: seq<Page>, cfg: Chunking): seq<Record>
    requires Valid(cfg)
  {
    Records(pages, ChunkLists(pages, cfg))
  }

  /** The number of chunks of the first `j` pages: where page `j`'s records begin. */
  function Offset(chunks: seq<seq<string>>, j: nat): nat
    requires j <= |chunks|
  {
    if j == 0 then 0 else |chunks[0]| + Offset(chunks[1..], j - 1)
  }

  predicate DistinctPageIds(pages: seq<Page>) {
    forall a, b :: 0 <= a < b < |pages| ==> pages[a].id != pages[b].id
  }

  predicate DistinctIds(recs: seq<Record>) {
    forall a, b :: 0 <= a < b < |recs| ==> recs[a].id != recs[b].id
  }

  // ---------------------------------------------------------------------------
  // Chunk ids

  /** Two chunk ids are equal only for the same page id and chunk number: the chunk number is the
      id's trailing run of digits, which the `_` of the tag ends. */
  lemma ChunkIdInjective(p1: string, i1: nat, p2: string, i2: nat)
    ensures ChunkId(p1, i1) == ChunkId(p2, i2) <==> p1 == p2 && i1 == i2
  {
    if ChunkId(p1, i1) == ChunkId(p2, i2) {
      var s := ChunkId(p1, i1);
      var d1, d2 := NatToString(i1), NatToString(i2);
      if |d1| != |d2| {
        TrailingDigits(p1 + ChunkTag, d1, p2 + ChunkTag, d2);
      }
      assert d1 == s[|s| - |d1|..] == d2;
      NatToStringInjective(i1, i2);
      assert p1 + ChunkTag == s[..|s| - |d1|] == p2 + ChunkTag;
      assert p1 == (p1 + ChunkTag)[..|p1|];
      assert p2 == (p2 + ChunkTag)[..|p2|];
    }
  }

  /** Two strings ending in `_` followed by digit runs of different lengths differ. */
  lemma TrailingDigits(a: string, d: string, b: string, e: string)
    requires a != "" && a[|a| - 1] == '_' && AllDigits(d)
    requires b != "" && b[|b| - 1] == '_' && AllDigits(e)
    requires |d| != |e|
    ensures a + d != b + e
  {
    if |a + d| == |b + e| {
      if |d| < |e| {
        var p := |a| - 1;
        assert (a + d)[p] == '_';
        assert (b + e)[p] == e[p - |b|];
      } else {
        var p := |b| - 1;
        assert (b + e)[p] == '_';
        assert (a + d)[p] == d[p - |a|];
      }
    }
  }

  // ---------------------------------------------------------------------------
  // Records

  /** The record at position `Offset(j) + i` is chunk `i` of page `j`, with that page's provenance,
      chunk index `i` and the page's chunk count. */
  lemma {:induction false} RecordAt(pages: seq<Page>, chunks: seq<seq<string>>, j: nat, i: nat)
    requires |pages| == |chunks| && j < |pages| && i < |chunks[j]|
    ensures var p := pages[j];
      && Offset(chunks, j) + i < |Records(pages, chunks)|
      && Records(pages, chunks)[Offset(chunks, j) + i]
         == Record(ChunkId(p.id, i), chunks[j][i], ChunkMeta(p.id, p.title, p.space, p.url, i, |chunks[j]|))
  {
    var head := PageRecords(pages[0], chunks[0]);
    var rest := Records(pages[1..], chunks[1..]);
    assert Records(pages, chunks) == head + rest;
    if j > 0 {
      assert pages[1..][j - 1] == pages[j] && chunks[1..][j - 1] == chunks[j];
      RecordAt(pages[1..], chunks[1..], j - 1, i);
    }
  }

  /** Every record position is `Offset(j) + i` for a page `j` and one of its chunks `i`. */
  lemma {:induction false} Locate(pages: seq<Page>, chunks: seq<seq<string>>, a: nat) returns (j: nat, i: nat)
    requires |pages| == |chunks| && a < |Records(pages, chunks)|
    ensures j < |pages| && i < |chunks[j]| && a == Offset(chunks, j) + i
  {
    var n := |chunks[0]|;
    assert |Records(pages, chunks)| == n + |Records(pages[1..], chunks[1..])|;
    if a < n {
      j, i := 0, a;
    } else {
      var j1, i1 := Locate(pages[1..], chunks[1..], a - n);
      assert chunks[1..][j1] == chunks[j1 + 1];
      j, i := j1 + 1, i1;
    }
  }

  /** There are as many records as chunks over all pages. */
  lemma {:induction false} RecordCount(pages: seq<Page>, chunks: seq<seq<string>>)
    requires |pages| == |chunks|
    ensures |Records(pages, chunks)| == Offset(chunks, |chunks|)
  {
    if pages != [] {
      RecordCount(pages[1..], chunks[1..]);
    }
  }

  /** Pages with distinct ids give records with distinct ids. */
  lemma UniqueIds(pages: seq<Page>, chunks: seq<seq<string>>)
    requires |pages| == |chunks| && DistinctPageIds(pages)
    ensures DistinctIds(Records(pages, chunks))
  {
    var recs := Records(pages, chunks);
    forall a, b | 0 <= a < b < |recs|
      ensures recs[a].id != recs[b].id
    {
      var ja, ia := Locate(pages, chunks, a);
      var jb, ib := Locate(pages, chunks, b);
      RecordAt(pages, chunks, ja, ia);
      RecordAt(pages, chunks, jb, ib);
      ChunkIdInjective(pages[ja].id, ia, pages[jb].id, ib);
      if ja != jb {
        assert pages[ja].id != pages[jb].id;
      }
    }
  }

  /** The converse: a page that appears twice with chunks, as when a space key is listed twice in
      the configuration, gives two records with the same id. */
  lemma RepeatedPageRepeatsIds(pages: seq<Page>, chunks: seq<seq<string>>, a: nat, b: nat)
    requires |pages| == |chunks| && a < b < |pages| && pages[a].id == pages[b].id
    requires |chunks[a]| > 0 && |chunks[b]| > 0
    ensures !DistinctIds(Records(pages, chunks))
  {
    RecordAt(pages, chunks, a, 0);
    RecordAt(pages, chunks, b, 0);
    OffsetGrows(chunks, a, b);
    var recs := Records(pages, chunks);
    var x, y := Offset(chunks, a), Offset(chunks, b);
    assert x < y && recs[x].id == recs[y].id;
  }

  /** Page `b`'s records begin after all records of an earlier page `a`. */
  lemma {:induction false} OffsetGrows(chunks: seq<seq<string>>, a: nat, b: nat)
    requires a < b <= |chunks|
    ensures Offset(chunks, a) + |chunks[a]| <= Offset(chunks, b)
  {
    if a > 0 {
      assert chunks[1..][a - 1] == chunks[a];
      OffsetGrows(chunks[1..], a - 1, b - 1);
    }
  }

  // ---------------------------------------------------------------------------
  // Batches

  /** `[xs[i:i + n] for i in range(0, len(xs), n)]`. */
  function Batches<T>(xs: seq<T>, n: nat): seq<seq<T>>
    requires n > 0
    decreases |xs|
  {
    if xs == [] then [] else if |xs| <= n then [xs] else [xs[..n]] + Batches(xs[n..], n)
  }

  function Flatten<T>(bs: seq<seq<T>>): seq<T> {
    if bs == [] then [] else bs[0] + Flatten(bs[1..])
  }

  /** The batches concatenate back to the list; each holds between 1 and `n` items, all but the last
      exactly `n`. */
  lemma {:induction false} BatchesShape<T>(xs: seq<T>, n: nat)
    requires n > 0
    ensures Flatten(Batches(xs, n)) == xs
    ensures var bs := Batches(xs, n);
      && (forall k :: 0 <= k < |bs| ==> 0 < |bs[k]| <= n)
      && (forall k :: 0 <= k < |bs| - 1 ==> |bs[k]| == n)
    decreases |xs|
  {
    if |xs| > n {
      var rest := Batches(xs[n..], n);
      BatchesShape(xs[n..], n);
      assert Batches(xs, n) == [xs[..n]] + rest;
      assert Flatten([xs[..n]] + rest) == xs[..n] + Flatten(rest);
      assert xs == xs[..n] + xs[n..];
    } else if xs != [] {
      assert Flatten([xs]) == xs + Flatten([]);
    }
  }

  // ---------------------------------------------------------------------------
  // The collection

  /** What the collection stores under a chunk id. */
  datatype Entry = Entry(text: string, meta: ChunkMeta)

  type Store = map<string, Entry>

  /** `collection.add(...)` of one batch: each record is stored under its id; an id already present
      keeps its entry. */
  function Insert(store: Store, batch: seq<Record>): (s: Store)
    ensures s.Keys == store.Keys + (set r <- batch :: r.id)
    ensures forall id <- store.Keys :: s[id] == store[id]
    decreases |batch|
  {
    if batch == [] then store
    else
      var r := batch[0];
      var next := if r.id in store then store else store[r.id := Entry(r.text, r.meta)];
      assert next.Keys == store.Keys + {r.id};
      assert forall id <- store.Keys :: next[id] == store[id];
      var s := Insert(next, batch[1..]);
      assert (set q <- batch :: q.id) == {r.id} + (set q <- batch[1..] :: q.id) by {
        assert forall q :: q in batch <==> q == r || q in batch[1..];
      }
      s
  }

  /** Adding the batches one after another. */
  function InsertBatches(store: Store, bs: seq<seq<Record>>): Store
    decreases |bs|
  {
    if bs == [] then store else InsertBatches(Insert(store, bs[0]), bs[1..])
  }

  /** Inserting in two steps is inserting the concatenation. */
  lemma {:induction false} InsertConcat(store: Store, a: seq<Record>, b: seq<Record>)
    ensures Insert(Insert(store, a), b) == Insert(store, a + b)
    decreases |a|
  {
    if a != [] {
      var r := a[0];
      var store' := if r.id in store then store else store[r.id := Entry(r.text, r.meta)];
      assert (a + b)[0] == r && (a + b)[1..] == a[1..] + b;
      InsertConcat(store', a[1..], b);
    } else {
      assert a + b == b;
    }
  }

  /** Adding batch after batch is adding their concatenation at once. */
  lemma {:induction false} InsertBatchesFlatten(store: Store, bs: seq<seq<Record>>)
    ensures InsertBatches(store, bs) == Insert(store, Flatten(bs))
    decreases |bs|
  {
    if bs != [] {
      InsertBatchesFlatten(Insert(store, bs[0]), bs[1..]);
      InsertConcat(store, bs[0], Flatten(bs[1..]));
    }
  }

  /** Records with distinct ids that are new to the store each land under their own id. */
  lemma {:induction false} InsertDistinct(store: Store, batch: seq<Record>)
    requires DistinctIds(batch)
    requires forall r <- batch :: r.id !in store
    ensures forall k :: 0 <= k < |batch| ==> Insert(store, batch)[batch[k].id] == Entry(batch[k].text, batch[k].meta)
    decreases |batch|
  {
    if batch != [] {
      var r := batch[0];
      var store' := store[r.id := Entry(r.text, r.meta)];
      assert batch[0] in batch;
      forall q | q in batch[1..]
        ensures q.id !in store'
      {
        var k :| 0 <= k < |batch[1..]| && batch[1..][k] == q;
        assert batch[k + 1] == q;
      }
      InsertDistinct(store', batch[1..]);
      assert forall k :: 0 < k < |batch| ==> batch[k] == batch[1..][k - 1];
    }
  }

  /** `index_pages`: the collection is recreated empty, then every record is added, batch by batch. */
  function IndexPages(pages: seq<Page>, cfg: Chunking): (r: Result<Store, Chunker.ConfigError>)
    ensures r.Failure? <==> !Valid(cfg)
    ensures r.Success? ==> r.value.Keys == set rec <- AllRecords(pages, cfg) :: rec.id
  {
    if !Valid(cfg) then Failure(Chunker.InvalidConfiguration(cfg.size, cfg.overlap))
    else
      var recs := AllRecords(pages, cfg);
      BatchesShape(recs, BatchSize);
      InsertBatchesFlatten(map[], Batches(recs, BatchSize));
      Success(InsertBatches(map[], Batches(recs, BatchSize)))
  }

  /** With distinct page ids, the index holds every record, under its own id. */
  lemma IndexContents(pages: seq<Page>, cfg: Chunking)
    requires Valid(cfg) && DistinctPageIds(pages)
    ensures IndexPages(pages, cfg).Success?
    ensures var store, recs := IndexPages(pages, cfg).value, AllRecords(pages, cfg);
      forall k :: 0 <= k < |recs| ==> recs[k].id in store && store[recs[k].id] == Entry(recs[k].text, recs[k].meta)
  {
    var recs := AllRecords(pages, cfg);
    BatchesShape(recs, BatchSize);
    InsertBatchesFlatten(map[], Batches(recs, BatchSize));
    UniqueIds(pages, ChunkLists(pages, cfg));
    InsertDistinct(map[], recs);
  }
}

=== FILE: pagination.dfy ===
/** The offset/limit loops of `fetch_all_pages` and `list_all_spaces`: ask for `limit` results at
    offsets `start`, `start + limit`, ... and stop at the first empty or short page. */
module Pagination {
  import opened Wrappers
  import opened Text

  /** Results per request when fetching the pages of a space. */
  const PageLimit: nat := 50
  /** Results per request when listing spaces. */
  const SpaceLimit: nat := 100

  /** A paginated endpoint: the `results` list it answers for `start` and `limit`. */
  type Server<T> = (nat, nat) -> seq<T>

  /** The offset of the `k`-th request. */
  function RequestOffset(start: nat, limit: nat, k: nat): nat {
    start + k * limit
  }

  function Prepend<T>(xs: seq<T>, r: Option<seq<T>>): Option<seq<T>> {
    match r
    case None => None
    case Some(ys) => Some(xs + ys)
  }

  /** The results of the loop from offset `start` with at most `budget` requests; `None` when the
      budget runs out before the server sends an empty or short page. */
  function Paginate<T>(server: Server<T>, limit: nat, start: nat, budget: nat): Option<seq<T>>
    decreases budget
  {
    if budget == 0 then None
    else
      var page := server(start, limit);
      if page == [] then Some([])
      else if |page| < limit then Some(page)
      else Prepend(page, Paginate(server, limit, start + limit, budget - 1))
  }

  /** The results of the first `n` requests, concatenated. */
  function Fetched<T>(server: Server<T>, limit: nat, start: nat, n: nat): seq<T>
    decreases n
  {
    if n == 0 then [] else server(start, limit) + Fetched(server, limit, start + limit, n - 1)
  }

  /** When the loop finishes it has made `m + 1` requests at offsets `start + k * limit`: the first
      `m` answers were full pages, the last was empty or short, and the result is all of them. */
  lemma {:induction false} PaginateStops<T>(server: Server<T>, limit: nat, start: nat, budget: nat)
    returns (m: nat)
    requires Paginate(server, limit, start, budget).Some?
    ensures m < budget
    ensures forall k :: 0 <= k < m ==>
      var page := server(RequestOffset(start, limit, k), limit); page != [] && |page| >= limit
    ensures var last := server(RequestOffset(start, limit, m), limit); last == [] || |last| < limit
    ensures Paginate(server, limit, start, budget).value == Fetched(server, limit, start, m + 1)
    decreases budget
  {
    var page := server(start, limit);
    if page == [] || |page| < limit {
      m := 0;
      assert Fetched(server, limit, start + limit, 0) == [];
    } else {
      var m1 := PaginateStops(server, limit, start + limit, budget - 1);
      m := m1 + 1;
      forall k | 0 <= k < m
        ensures var p := server(RequestOffset(start, limit, k), limit); p != [] && |p| >= limit
      {
        if k > 0 {
          assert RequestOffset(start, limit, k) == RequestOffset(start + limit, limit, k - 1);
        }
      }
      assert RequestOffset(start, limit, m) == RequestOffset(start + limit, limit, m1);
    }
  }

  /** A server over a fixed list: each request gets the next slice of it. */
  function SliceServer<T>(all: seq<T>): Server<T> {
    (s: nat, l: nat) => all[Min(s, |all|)..Min(s + l, |all|)]
  }

  /** Against a server over a fixed list, with a budget of more than `(|all| - start) / limit`
      requests, the loop returns exactly the list from `start` on, in order. */
  lemma {:induction false} SliceServerFetchesAll<T>(all: seq<T>, limit: nat, start: nat, budget: nat)
    requires limit > 0 && start <= |all| && budget * limit > |all| - start
    ensures Paginate(SliceServer(all), limit, start, budget) == Some(all[start..])
    decreases budget
  {
    var server := SliceServer(all);
    var page := server(start, limit);
    assert page == all[Min(start, |all|)..Min(start + limit, |all|)];
    if start + limit <= |all| {
      assert page == all[start..start + limit];
      assert (budget - 1) * limit == budget * limit - limit;
      SliceServerFetchesAll(all, limit, start + limit, budget - 1);
      assert all[start..] == page + all[start + limit..];
    } else {
      assert page == all[start..];
    }
  }

  /** The `while True` loop of `list_all_spaces` with at most `budget` requests: it returns the
      collected results, the offsets it requested, and whether the server ended the listing. */
  method ListAll<T>(server: Server<T>, limit: nat, budget: nat) returns (items: seq<T>, offsets: seq<nat>, done: bool)
    ensures done <==> Paginate(server, limit, 0, budget).Some?
    ensures done ==> items == Paginate(server, limit, 0, budget).value
    ensures |offsets| <= budget
    ensures forall k :: 0 <= k < |offsets| ==> offsets[k] == RequestOffset(0, limit, k)
  {
    items, offsets, done := [], [], false;
    var start: nat := 0;
    var left: nat := budget;
    assert Prepend(items, Paginate(server, limit, start, left)) == Paginate(server, limit, start, left) by {
      PrependTwice([], [], Paginate(server, limit, start, left));
    }
    while !done && left > 0
      invariant left + |offsets| == budget
      invariant !done ==> start == RequestOffset(0, limit, |offsets|)
      invariant forall k :: 0 <= k < |offsets| ==> offsets[k] == RequestOffset(0, limit, k)
      invariant !done ==> Paginate(server, limit, 0, budget) == Prepend(items, Paginate(server, limit, start, left))
      invariant done ==> Paginate(server, limit, 0, budget) == Some(items)
      decreases left
    {
      var results := server(start, limit);
      offsets := offsets + [start];
      if results == [] {
        assert Paginate(server, limit, start, left) == Some([]);
        assert items + [] == items;
        done := true;
      } else {
        var before := items;
        items := items + results;
        if |results| < limit {
          done := true;
        } else {
          PrependTwice(before, results, Paginate(server, limit, start + limit, left - 1));
          assert RequestOffset(0, limit, |offsets|) == start + limit by {
            assert (|offsets| - 1 + 1) * limit == (|offsets| - 1) * limit + limit;
          }
          start := start + limit;
        }
      }
      left := left - 1;
    }
  }

  lemma PrependTwice<T>(xs: seq<T>, ys: seq<T>, r: Option<seq<T>>)
    ensures Prepend(xs, Prepend(ys, r)) == Prepend(xs + ys, r)
    ensures Prepend([], r) == r
  {
    if r.Some? {
      assert xs + (ys + r.value) == (xs + ys) + r.value;
      assert [] + r.value == r.value;
    }
  }

  // ---------------------------------------------------------------------------
  // fetch_all_pages

  /** The space keys `fetch_all_pages` asks for: the blank ones are skipped, the others kept as they
      are, in order. */
  function KeysToFetch(keys: seq<string>): (r: seq<string>)
    ensures |r| <= |keys|
    ensures forall k <- r :: k in keys && !AllSpace(k)
    ensures forall k <- keys :: !AllSpace(k) ==> k in r
  {
    if keys == [] then []
    else
      assert forall k :: k in keys <==> k == keys[0] || k in keys[1..];
      (if AllSpace(keys[0]) then [] else [keys[0]]) + KeysToFetch(keys[1..])
  }

  /** The keys are visited in order, repeats included: the kept keys of a concatenation are the
      kept keys of each part, one after the other. */
  lemma {:induction false} KeysToFetchConcat(a: seq<string>, b: seq<string>)
    ensures KeysToFetch(a + b) == KeysToFetch(a) + KeysToFetch(b)
  {
    if a != [] {
      assert (a + b)[0] == a[0];
      assert (a + b)[1..] == a[1..] + b;
      KeysToFetchConcat(a[1..], b);
    } else {
      assert a + b == b;
    }
  }

  /** `fetch_all_pages`: the pages of each non-blank space key, key after key; `server(key)` is the
      content endpoint for that key. */
  function FetchAllPages<T>(server: string -> Server<T>, keys: seq<string>, budget: nat): Option<seq<T>> {
    if keys == [] then Some([])
    else if AllSpace(keys[0]) then FetchAllPages(server, keys[1..], budget)
    else FetchStep(server, keys[0], FetchAllPages(server, keys[1..], budget), budget)
  }

  /** Blank keys change nothing: fetching is fetching the kept keys. */
  lemma {:induction false} FetchSkipsBlank<T>(server: string -> Server<T>, keys: seq<string>, budget: nat)
    ensures FetchAllPages(server, keys, budget) == FetchAllPages(server, KeysToFetch(keys), budget)
  {
    if keys != [] {
      FetchSkipsBlank(server, keys[1..], budget);
      var rest := KeysToFetch(keys[1..]);
      if !AllSpace(keys[0]) {
        var kept := [keys[0]] + rest;
        assert KeysToFetch(keys) == kept;
        assert kept[0] == keys[0] && kept[1..] == rest;
        assert FetchAllPages(server, kept, budget) == FetchStep(server, keys[0], FetchAllPages(server, rest, budget), budget);
      } else {
        assert KeysToFetch(keys) == rest;
      }
    }
  }

  /** One non-blank key's pages in front of the rest. */
  function FetchStep<T>(server: string -> Server<T>, key: string, rest: Option<seq<T>>, budget: nat): Option<seq<T>> {
    match Paginate(server(key), PageLimit, 0, budget)
    case None => None
    case Some(pages) => Prepend(pages, rest)
  }

  /** One fixed-list server per space key. */
  function ListServers<T>(spaces: string -> seq<T>): string -> Server<T> {
    k => SliceServer(spaces(k))
  }

  /** Every space served from a fixed list, with enough budget, yields all its pages, space after
      space. */
  lemma {:induction false} FetchAllFromLists<T>(spaces: string -> seq<T>, keys: seq<string>, budget: nat)
    requires forall k <- keys :: budget * PageLimit > |spaces(k)|
    ensures FetchAllPages(ListServers(spaces), keys, budget) == Some(AllOf(spaces, KeysToFetch(keys)))
  {
    if keys != [] {
      assert keys[0] in keys;
      assert forall k <- keys[1..] :: k in keys;
      FetchAllFromLists(spaces, keys[1..], budget);
      var rest := KeysToFetch(keys[1..]);
      if !AllSpace(keys[0]) {
        var key := keys[0];
        assert ListServers(spaces)(key) == SliceServer(spaces(key));
        SliceServerFetchesAll(spaces(key), PageLimit, 0, budget);
        assert spaces(key)[0..] == spaces(key);
        assert KeysToFetch(keys) == [key] + rest;
        assert ([key] + rest)[1..] == rest;
      } else {
        assert KeysToFetch(keys) == rest;
      }
    }
  }

  /** The lists of the given keys, concatenated. */
  function AllOf<T>(spaces: string -> seq<T>, keys: seq<string>): seq<T> {
    if keys == [] then [] else spaces(keys[0]) + AllOf(spaces, keys[1..])
  }
}

=== FILE: spacefinder.dfy ===
/** The helper script that lists the spaces an account can read and suggests a value for
    `CONFLUENCE_SPACES`. */
module SpaceFinder {
  import opened Wrappers
  import opened Text
  import Pagination
  import Startup

  /** The description shown for a space that has none. */
  const NotAvailable: string := "N/A"
  /** Longest description printed in full. */
  const DescriptionLimit: nat := 100
  const Ellipsis: string := "..."
  /** The space type left out of the suggestion when any other type exists. */
  const Personal: string := "personal"
  /** How many keys the suggestion takes from the non-personal spaces, or else from all spaces. */
  const SuggestLimit: nat := 5
  const FallbackLimit: nat := 3

  /** A space as the REST API answers it: the description sits at `description.plain.value`, and
      any level of that path may be missing. */
  datatype PlainText = PlainText(value: Option<string>)
  datatype Description = Description(plain: Option<PlainText>)
  datatype ApiSpace = ApiSpace(key: string, name: string, kind: string, description: Option<Description>)

  /** A space as the script keeps it. */
  datatype SpaceInfo = SpaceInfo(key: string, name: string, kind: string, description: string)

  /** The description text when the whole path is present. */
  predicate HasText(d: Option<Description>) {
    d.Some? && d.value.plain.Some? && d.value.plain.value.value.Some?
  }

  /** The description read with a default at every level: the text when present, else "N/A". */
  function DescriptionOf(d: Option<Description>): (r: string)
    ensures HasText(d) ==> r == d.value.plain.value.value.value
    ensures !HasText(d) ==> r == NotAvailable
  {
    match d
    case None => NotAvailable
    case Some(Description(plain)) =>
      match plain
      case None => NotAvailable
      case Some(PlainText(value)) => value.GetOr(NotAvailable)
  }

  function InfoOf(s: ApiSpace): SpaceInfo {
    SpaceInfo(s.key, s.name, s.kind, DescriptionOf(s.description))
  }

  /** `list_all_spaces` with at most `budget` requests of `SpaceLimit` spaces each: every space
      the listing returned, in order, read into a `SpaceInfo`, and the offsets requested, 0, 100,
      200, ...; `done` is false when the budget ran out first. */
  method ListAllSpaces(server: Pagination.Server<ApiSpace>, budget: nat)
    returns (spaces: seq<SpaceInfo>, offsets: seq<nat>, done: bool)
    ensures |offsets| <= budget && forall k :: 0 <= k < |offsets| ==> offsets[k] == k * Pagination.SpaceLimit
    ensures done <==> Pagination.Paginate(server, Pagination.SpaceLimit, 0, budget).Some?
    ensures done ==> var all := Pagination.Paginate(server, Pagination.SpaceLimit, 0, budget).value;
      |spaces| == |all| && forall i :: 0 <= i < |all| ==> spaces[i] == InfoOf(all[i])
  {
    var items;
    items, offsets, done := Pagination.ListAll(server, Pagination.SpaceLimit, budget);
    spaces := seq(|items|, i requires 0 <= i < |items| => InfoOf(items[i]));
  }

  /** Against a server over a fixed list of spaces, with enough requests, the listing is that
      list, in order. */
  lemma ListsEverySpace(all: seq<ApiSpace>, budget: nat)
    requires budget * Pagination.SpaceLimit > |all|
    ensures Pagination.Paginate(Pagination.SliceServer(all), Pagination.SpaceLimit, 0, budget) == Some(all)
  {
    Pagination.SliceServerFetchesAll(all, Pagination.SpaceLimit, 0, budget);
    assert all[0..] == all;
  }

  /** What the listing prints as the description: nothing for "N/A", else the text, cut to its
      first 100 characters followed by "..." when it is longer. */
  function Shown(description: string): (r: Option<string>)
    ensures r.None? <==> description == NotAvailable
    ensures r.Some? ==> r.value == Truncate(description)
  {
    if description == NotAvailable then None else Some(Truncate(description))
  }

  /** Descriptions up to the limit are kept; longer ones become their first 100 characters and
      "...", 103 characters in all. */
  function Truncate(d: string): (r: string)
    ensures |d| <= DescriptionLimit ==> r == d
    ensures |d| > DescriptionLimit ==>
      |r| == DescriptionLimit + |Ellipsis| && r[..DescriptionLimit] == d[..DescriptionLimit] && r[DescriptionLimit..] == Ellipsis
  {
    if |d| > DescriptionLimit then d[..DescriptionLimit] + Ellipsis else d
  }

  /** A shown description is never longer than 103 characters and starts like the description. */
  lemma TruncateBounds(d: string)
    ensures |Truncate(d)| <= DescriptionLimit + |Ellipsis|
    ensures var n := if |d| < DescriptionLimit then |d| else DescriptionLimit;
      Truncate(d)[..n] == d[..n]
  {
  }

  /** Cutting a description a second time changes nothing. */
  lemma TruncateIdempotent(d: string)
    ensures Truncate(Truncate(d)) == Truncate(d)
  {
    if |d| > DescriptionLimit {
      var r := Truncate(d);
      assert r == r[..DescriptionLimit] + r[DescriptionLimit..];
    }
  }

  /** The spaces whose type is not personal, in their original order. */
  function NonPersonal(spaces: seq<SpaceInfo>): (r: seq<SpaceInfo>)
    ensures |r| <= |spaces|
    ensures r == [] <==> forall s <- spaces :: s.kind == Personal
    ensures forall s <- r :: s in spaces && s.kind != Personal
    ensures forall s <- spaces :: s.kind != Personal ==> s in r
  {
    if spaces == [] then []
    else
      assert forall s :: s in spaces <==> s == spaces[0] || s in spaces[1..];
      (if spaces[0].kind != Personal then [spaces[0]] else []) + NonPersonal(spaces[1..])
  }

  /** Filtering keeps the order: the filter of a concatenation is the concatenation of the
      filters. */
  lemma {:induction false} NonPersonalConcat(a: seq<SpaceInfo>, b: seq<SpaceInfo>)
    ensures NonPersonal(a + b) == NonPersonal(a) + NonPersonal(b)
  {
    if a != [] {
      assert (a + b)[0] == a[0];
      assert (a + b)[1..] == a[1..] + b;
      NonPersonalConcat(a[1..], b);
    } else {
      assert a + b == b;
    }
  }

  function Keys(spaces: seq<SpaceInfo>): (r: seq<string>)
    ensures |r| == |spaces| && forall i :: 0 <= i < |spaces| ==> r[i] == spaces[i].key
  {
    seq(|spaces|, i requires 0 <= i < |spaces| => spaces[i].key)
  }

  /** The suggested key list: the first five keys of non-personal spaces when there is any such
      space, otherwise the first three keys of all spaces. */
  function Suggest(spaces: seq<SpaceInfo>): (r: seq<string>)
    ensures (exists s <- spaces :: s.kind != Personal) ==>
      var common := NonPersonal(spaces);
      |r| == Min(SuggestLimit, |common|) && forall i :: 0 <= i < |r| ==> r[i] == common[i].key
    ensures (forall s <- spaces :: s.kind == Personal) ==>
      |r| == Min(FallbackLimit, |spaces|) && forall i :: 0 <= i < |r| ==> r[i] == spaces[i].key
    ensures spaces != [] <==> r != []
  {
    var common := Keys(NonPersonal(spaces))[..Min(SuggestLimit, |NonPersonal(spaces)|)];
    if common != [] then common else Keys(spaces)[..Min(FallbackLimit, |spaces|)]
  }

  /** The value printed for `CONFLUENCE_SPACES`. */
  function SuggestedValue(spaces: seq<SpaceInfo>): string {
    Join(",", Suggest(spaces))
  }

  /** Pasted into `CONFLUENCE_SPACES`, the suggestion is read back as exactly the suggested keys
      (space keys hold no comma), and the server accepts it unless the first key is empty. */
  lemma SuggestionRoundTrip(spaces: seq<SpaceInfo>)
    requires spaces != []
    requires forall s <- spaces :: ',' !in s.key
    ensures Startup.SpacesFromEnv(Some(SuggestedValue(spaces))) == Suggest(spaces)
    ensures Startup.SpacesConfigured(Startup.SpacesFromEnv(Some(SuggestedValue(spaces)))) <==> Suggest(spaces)[0] != ""
  {
    var r := Suggest(spaces);
    forall k <- r
      ensures ',' !in k
    {
      var i :| 0 <= i < |r| && r[i] == k;
      if exists s <- spaces :: s.kind != Personal {
        assert NonPersonal(spaces)[i] in spaces;
      } else {
        assert spaces[i] in spaces;
      }
    }
    Startup.SpacesFromJoin(r);
  }
}

=== FILE: startup.dfy ===
/** The configured space keys and the decision, taken when the knowledge base is loaded, whether
    the stored index must be rebuilt. */
module Startup {
  import opened Wrappers
  import opened Text

  /** `CONFLUENCE_SPACES` split on commas; an unset variable reads as the empty string. Every
      piece is kept as it is, blank ones included, and joining them back gives the variable. */
  function SpacesFromEnv(env: Option<string>): (spaces: seq<string>)
    ensures |spaces| >= 1
    ensures forall k <- spaces :: ',' !in k
    ensures Join(",", spaces) == env.GetOr("")
  {
    var s := env.GetOr("");
    SplitParts(s, ",");
    JoinSplit(s, ",");
    forall k <- Split(s, ",")
      ensures ',' !in k
    {
      ContainsChar(k, ',');
    }
    Split(s, ",")
  }

  /** Splitting undoes joining: a non-empty list of comma-free keys written into the variable
      comes back unchanged. */
  lemma SpacesFromJoin(keys: seq<string>)
    requires |keys| >= 1
    requires forall k <- keys :: ',' !in k
    ensures SpacesFromEnv(Some(Join(",", keys))) == keys
  {
    SplitJoin(keys, ',');
  }

  /** The check made before the server starts: there is a first key and it is not empty. */
  predicate SpacesConfigured(spaces: seq<string>) {
    |spaces| > 0 && spaces[0] != ""
  }

  /** The check passes exactly when the variable is set, non-empty, and does not start with a
      comma. */
  lemma ConfiguredIff(env: Option<string>)
    ensures SpacesConfigured(SpacesFromEnv(env)) <==> env.GetOr("") != "" && env.GetOr("")[0] != ','
  {
    var s := env.GetOr("");
    var i := Find(s, ",");
    if s != "" {
      assert OccursAt(s, ",", 0) <==> s[0] == ',' by {
        if s[0] == ',' { assert s[0..1] == ","; }
      }
      if i != -1 {
        assert Split(s, ",")[0] == s[..i];
      }
    }
  }

  /** What the metadata file records about the last build; `spaces` is `None` when the file has
      no such entry. */
  datatype IndexMetadata = IndexMetadata(totalPages: nat, spaces: Option<seq<string>>, indexedAt: int)

  function SetOf(xs: seq<string>): set<string> {
    set x | x in xs
  }

  /** The startup decision: rebuild unless a metadata file exists whose stored keys, read as a
      set (a missing entry as no keys), are the configured keys read as a set. */
  function NeedsReindex(stored: Option<IndexMetadata>, configured: seq<string>): (r: bool)
    ensures !r <==> stored.Some? && forall x :: x in stored.value.spaces.GetOr([]) <==> x in configured
  {
    if stored.None? then true
    else
      var xs := stored.value.spaces.GetOr([]);
      var same := SetOf(xs) == SetOf(configured);
      assert same <==> forall x :: x in xs <==> x in configured by {
        if same {
          forall x ensures x in xs <==> x in configured {
            assert x in xs <==> x in SetOf(xs);
            assert x in configured <==> x in SetOf(configured);
          }
        } else {
          var x :| x in SetOf(xs) - SetOf(configured) || x in SetOf(configured) - SetOf(xs);
          assert x in xs <==> !(x in configured);
        }
      }
      !same
  }

  /** The decision depends only on which keys are configured, not on their order or repetition. */
  lemma DecisionIgnoresOrder(stored: Option<IndexMetadata>, a: seq<string>, b: seq<string>)
    requires forall x :: x in a <==> x in b
    ensures NeedsReindex(stored, a) == NeedsReindex(stored, b)
  {
  }

  /** The metadata written after a build, at load time or by the reindex tool: `pageCount` is the
      number of pages fetched and `now` the clock. */
  function Rebuilt(configured: seq<string>, pageCount: nat, now: int): (m: IndexMetadata)
    ensures m.spaces == Some(configured) && m.totalPages == pageCount
    ensures !NeedsReindex(Some(m), configured)
  {
    IndexMetadata(pageCount, Some(configured), now)
  }

  /** Loading the knowledge base: the metadata on disk afterwards. A build happens exactly when
      the decision asks for one; otherwise the stored metadata stays. */
  function Load(stored: Option<IndexMetadata>, configured: seq<string>, pageCount: nat, now: int): (r: IndexMetadata)
    ensures NeedsReindex(stored, configured) ==> r == Rebuilt(configured, pageCount, now)
    ensures !NeedsReindex(stored, configured) ==> stored == Some(r)
    ensures !NeedsReindex(Some(r), configured)
  {
    if NeedsReindex(stored, configured) then Rebuilt(configured, pageCount, now) else stored.value
  }

  /** A second load with the same configuration builds nothing and keeps the metadata of the
      first, whatever the fetch and the clock would give. */
  lemma LoadSettles(stored: Option<IndexMetadata>, configured: seq<string>, n1: nat, t1: int, n2: nat, t2: int)
    ensures Load(Some(Load(stored, configured, n1, t1)), configured, n2, t2) == Load(stored, configured, n1, t1)
  {
  }
}

=== FILE: text.dfy ===
/** The pieces of Python's `str` that the indexer relies on: `isspace`, `strip`,
    `find`/`rfind`, `split`, `join`, and `str()` of a non-negative `int`.
    Strings are sequences of Unicode scalar values. */
module Text {

  /** Python's `str.isspace()` on one character: the characters `strip()` removes. */
  predicate IsSpace(c: char) {
    || ('\t' <= c <= '\r')              // tab, line feed, vertical tab, form feed, carriage return
    || ('\U{1c}' <= c <= '\U{1f}')      // file, group, record and unit separators
    || c == ' '
    || c == '\U{85}' || c == '\U{a0}' || c == '\U{1680}'
    || ('\U{2000}' <= c <= '\U{200a}')
    || c == '\U{2028}' || c == '\U{2029}' || c == '\U{202f}' || c == '\U{205f}' || c == '\U{3000}'
  }

  /** True when every character of `s` is whitespace (vacuously true of ""). */
  predicate AllSpace(s: string) {
    forall k :: 0 <= k < |s| ==> IsSpace(s[k])
  }

  /** True when every character of `a` also occurs in `b`. */
  predicate CharsIn(a: string, b: string) {
    forall c :: c in a ==> c in b
  }

  function Min(a: int, b: int): int {
    if a < b then a else b
  }

  function Max(a: int, b: int): int {
    if a < b then b else a
  }

  // ---------------------------------------------------------------------------
  // strip()

  /** Index of the first non-whitespace character, or |s| if there is none. */
  function StripStart(s: string): (i: nat)
    ensures i <= |s|
    ensures forall k :: 0 <= k < i ==> IsSpace(s[k])
    ensures i < |s| ==> !IsSpace(s[i])
  {
    if |s| == 0 || !IsSpace(s[0]) then 0
    else 1 + StripStart(s[1..])
  }

  /** One past the index of the last non-whitespace character, or 0 if there is none. */
  function StripEnd(s: string): (j: nat)
    ensures j <= |s|
    ensures forall k :: j <= k < |s| ==> IsSpace(s[k])
    ensures j > 0 ==> !IsSpace(s[j - 1])
  {
    if |s| == 0 || !IsSpace(s[|s| - 1]) then |s|
    else StripEnd(s[..|s| - 1])
  }

  /** Python's `s.strip()`: `s` without its leading and trailing whitespace. */
  function Strip(s: string): (r: string)
    ensures |r| <= |s|
    ensures r == "" <==> AllSpace(s)
    ensures r != "" ==> !IsSpace(r[0]) && !IsSpace(r[|r| - 1])
    ensures StripStart(s) + |r| <= |s| && r == s[StripStart(s)..StripStart(s) + |r|]
    ensures forall k :: 0 <= k < StripStart(s) ==> IsSpace(s[k])
    ensures forall k :: StripStart(s) + |r| <= k < |s| ==> IsSpace(s[k])
  {
    var i := StripStart(s);
    if i == |s| then ""
    else s[i..StripEnd(s)]
  }

  /** A string is its own strip exactly when it is empty or starts and ends with a non-space. */
  lemma StripFixedPoint(s: string)
    ensures Strip(s) == s <==> (s == "" || (!IsSpace(s[0]) && !IsSpace(s[|s| - 1])))
  {
    if s != "" && !IsSpace(s[0]) && !IsSpace(s[|s| - 1]) {
      assert StripStart(s) == 0;
      assert s[|s| - 1] in s[StripStart(s) + |Strip(s)|..] || |Strip(s)| == |s|;
    }
  }

  /** Stripping twice is stripping once. */
  lemma StripIdempotent(s: string)
    ensures Strip(Strip(s)) == Strip(s)
  {
    StripFixedPoint(Strip(s));
  }

  /** Every character of `Strip(s)` is a character of `s`. */
  lemma StripCharsIn(s: string)
    ensures CharsIn(Strip(s), s)
  {
    var i := StripStart(s);
    var r := Strip(s);
    forall c | c in r
      ensures c in s
    {
      var k :| 0 <= k < |r| && r[k] == c;
      assert s[i + k] == c;
    }
  }

  /** A non-space character of `s` survives `strip()`. */
  lemma StripKeeps(s: string, c: char)
    requires c in s && !IsSpace(c)
    ensures c in Strip(s)
  {
    var i := StripStart(s);
    var r := Strip(s);
    var k :| 0 <= k < |s| && s[k] == c;
    assert r[k - i] == c;
  }

  // ---------------------------------------------------------------------------
  // find(), rfind()

  /** `sep` occurs in `s` starting at index `i`. */
  predicate OccursAt(s: string, sep: string, i: int) {
    0 <= i && i + |sep| <= |s| && s[i..i + |sep|] == sep
  }

  /** Python's `sep in s`. */
  predicate Contains(s: string, sep: string) {
    exists i | 0 <= i <= |s| :: OccursAt(s, sep, i)
  }

  /** First occurrence of `sep` in `s` at or after `from`, or -1. */
  function FindFrom(s: string, sep: string, from: nat): (i: int)
    ensures i == -1 || (from <= i && OccursAt(s, sep, i))
    ensures forall k :: from <= k && (i == -1 || k < i) ==> !OccursAt(s, sep, k)
    decreases |s| - from
  {
    if from + |sep| > |s| then -1
    else if s[from..from + |sep|] == sep then from
    else FindFrom(s, sep, from + 1)
  }

  /** Python's `s.find(sep)`: the index of the first occurrence, or -1. */
  function Find(s: string, sep: string): (i: int)
    ensures i == -1 <==> !Contains(s, sep)
    ensures i != -1 ==> OccursAt(s, sep, i) && forall k :: 0 <= k < i ==> !OccursAt(s, sep, k)
  {
    FindFrom(s, sep, 0)
  }

  /** Python's `s.rfind(c)` for one character: the index of its last occurrence, or -1. */
  function RFind(s: string, c: char): (i: int)
    ensures -1 <= i < |s|
    ensures i == -1 <==> c !in s
    ensures i != -1 ==> s[i] == c
    ensures forall k :: i < k < |s| ==> s[k] != c
  {
    if |s| == 0 then -1
    else if s[|s| - 1] == c then |s| - 1
    else RFind(s[..|s| - 1], c)
  }

  /** An occurrence inside a slice is an occurrence in the whole string. */
  lemma ContainsSlice(s: string, lo: nat, hi: nat, sep: string)
    requires lo <= hi <= |s|
    requires Contains(s[lo..hi], sep)
    ensures Contains(s, sep)
  {
    var t := s[lo..hi];
    var i :| 0 <= i <= |t| && OccursAt(t, sep, i);
    var u, v := t[i..i + |sep|], s[lo + i..lo + i + |sep|];
    assert forall k :: 0 <= k < |sep| ==> u[k] == v[k];
    assert OccursAt(s, sep, lo + i);
  }

  /** A two-character pattern in a concatenation lies in one part or straddles the join. */
  lemma ContainsConcat(a: string, b: string, sep: string)
    requires |sep| == 2
    requires Contains(a + b, sep)
    ensures || Contains(a, sep) || Contains(b, sep)
            || (|a| > 0 && |b| > 0 && a[|a| - 1] == sep[0] && b[0] == sep[1])
  {
    var s := a + b;
    var i :| 0 <= i <= |s| && OccursAt(s, sep, i);
    var w := s[i..i + 2];
    assert w[0] == s[i] && w[1] == s[i + 1];
    if i + 2 <= |a| {
      var u := a[i..i + 2];
      assert u[0] == w[0] && u[1] == w[1];
      assert OccursAt(a, sep, i);
    } else if i >= |a| {
      var v := b[i - |a|..i - |a| + 2];
      assert v[0] == w[0] && v[1] == w[1];
      assert OccursAt(b, sep, i - |a|);
    }
  }

  /** For a one-character pattern, containment is membership. */
  lemma ContainsChar(s: string, c: char)
    ensures Contains(s, [c]) <==> c in s
  {
    if c in s {
      var k :| 0 <= k < |s| && s[k] == c;
      assert s[k..k + 1] == [c];
      assert OccursAt(s, [c], k);
    }
    if Contains(s, [c]) {
      var k :| 0 <= k <= |s| && OccursAt(s, [c], k);
      assert s[k..k + 1][0] == s[k];
    }
  }

  // ---------------------------------------------------------------------------
  // split(), join()

  /** Python's `s.split(sep)` for a non-empty separator: the pieces between
      left-to-right, non-overlapping occurrences of `sep`. */
  function Split(s: string, sep: string): (parts: seq<string>)
    requires |sep| > 0
    ensures |parts| >= 1
    decreases |s|
  {
    var i := Find(s, sep);
    if i == -1 then [s] else [s[..i]] + Split(s[i + |sep|..], sep)
  }

  /** No piece of a split holds the separator, and every piece is made of characters of `s`. */
  lemma SplitParts(s: string, sep: string)
    requires |sep| > 0
    ensures forall p <- Split(s, sep) :: !Contains(p, sep) && CharsIn(p, s)
  {
    SplitNoSep(s, sep);
    SplitCharsIn(s, sep);
  }

  /** No piece of a split holds the separator. */
  lemma {:induction false} SplitNoSep(s: string, sep: string)
    requires |sep| > 0
    ensures forall p <- Split(s, sep) :: !Contains(p, sep)
    decreases |s|
  {
    var i := Find(s, sep);
    if i != -1 {
      BeforeFirstOccurrence(s, sep, i);
      SplitNoSep(s[i + |sep|..], sep);
    }
  }

  /** The text before the first occurrence of `sep` holds no occurrence of it. */
  lemma BeforeFirstOccurrence(s: string, sep: string, i: nat)
    requires i <= |s| && |sep| > 0
    requires forall k :: 0 <= k < i ==> !OccursAt(s, sep, k)
    ensures !Contains(s[..i], sep)
  {
    var head := s[..i];
    forall k | 0 <= k <= |head|
      ensures !OccursAt(head, sep, k)
    {
      if k + |sep| <= |head| {
        assert !OccursAt(s, sep, k);
        var u, v := head[k..k + |sep|], s[k..k + |sep|];
        assert forall m :: 0 <= m < |sep| ==> u[m] == v[m];
      }
    }
  }

  /** Every piece of a split is made of characters of `s`. */
  lemma {:induction false} SplitCharsIn(s: string, sep: string)
    requires |sep| > 0
    ensures forall p <- Split(s, sep) :: CharsIn(p, s)
    decreases |s|
  {
    var i := Find(s, sep);
    if i != -1 {
      var rest := s[i + |sep|..];
      SplitCharsIn(rest, sep);
      forall p <- Split(rest, sep), c | c in p
        ensures c in s
      {
        assert c in rest;
      }
      forall c | c in s[..i]
        ensures c in s
      {
      }
    }
  }

  /** Python's `sep.join(parts)`. */
  function Join(sep: string, parts: seq<string>): string {
    if |parts| == 0 then ""
    else if |parts| == 1 then parts[0]
    else parts[0] + sep + Join(sep, parts[1..])
  }

  /** Joining the pieces of a split with the same separator gives the string back. */
  lemma {:induction false} JoinSplit(s: string, sep: string)
    requires |sep| > 0
    ensures Join(sep, Split(s, sep)) == s
    decreases |s|
  {
    var i := Find(s, sep);
    if i != -1 {
      var rest := s[i + |sep|..];
      var tail := Split(rest, sep);
      assert Split(s, sep) == [s[..i]] + tail;
      JoinSplit(rest, sep);
      JoinCons(sep, s[..i], tail);
      assert s == s[..i] + s[i..i + |sep|] + rest;
    }
  }

  /** Joining a non-empty tail after a head puts one separator between them. */
  lemma JoinCons(sep: string, head: string, tail: seq<string>)
    requires |tail| >= 1
    ensures Join(sep, [head] + tail) == head + sep + Join(sep, tail)
  {
    assert ([head] + tail)[1..] == tail;
  }

  /** Splitting a join on a one-character separator that occurs in no part gives the parts back. */
  lemma {:induction false} SplitJoin(parts: seq<string>, c: char)
    requires |parts| >= 1
    requires forall p <- parts :: c !in p
    ensures Split(Join([c], parts), [c]) == parts
  {
    var s := Join([c], parts);
    var p := parts[0];
    if |parts| == 1 {
      ContainsChar(p, c);
    } else {
      var rest := Join([c], parts[1..]);
      assert s == p + [c] + rest;
      assert OccursAt(s, [c], |p|) by {
        assert s[|p|..|p| + 1] == [c];
      }
      forall k | 0 <= k < |p|
        ensures !OccursAt(s, [c], k)
      {
        assert s[k] == p[k] && p[k] in p;
        assert s[k..k + 1][0] == s[k];
      }
      assert Find(s, [c]) == |p|;
      assert s[..|p|] == p;
      assert s[|p| + 1..] == rest;
      SplitJoin(parts[1..], c);
    }
  }

  /** The non-empty strings of `xs`, in order (Python's `[x for x in xs if x]`). */
  function NonEmpty(xs: seq<string>): (r: seq<string>)
    ensures |r| <= |xs|
    ensures r == [] <==> forall x <- xs :: x == ""
    ensures forall x <- r :: x != "" && x in xs
    ensures forall x <- xs :: x != "" ==> x in r
  {
    if xs == [] then []
    else if xs[0] == "" then
      assert forall x :: x in xs <==> x == xs[0] || x in xs[1..];
      NonEmpty(xs[1..])
    else
      assert xs[0] in xs;
      [xs[0]] + NonEmpty(xs[1..])
  }

  /** Filtering keeps order and repeats: the filter of a concatenation is the concatenation of the
      filters. With `|r| <= |xs|` and the membership clauses this fixes `NonEmpty` as the ordered
      filter. */
  lemma {:induction false} NonEmptyConcat(a: seq<string>, b: seq<string>)
    ensures NonEmpty(a + b) == NonEmpty(a) + NonEmpty(b)
  {
    if a != [] {
      assert (a + b)[0] == a[0];
      assert (a + b)[1..] == a[1..] + b;
      NonEmptyConcat(a[1..], b);
    } else {
      assert a + b == b;
    }
  }

  /** Filtering a list without empty strings keeps it. */
  lemma {:induction false} NonEmptyFixed(ps: seq<string>)
    requires forall p <- ps :: p != ""
    ensures NonEmpty(ps) == ps
  {
    if ps != [] {
      assert ps[0] in ps;
      assert forall p <- ps[1..] :: p in ps;
      NonEmptyFixed(ps[1..]);
      assert NonEmpty(ps) == [ps[0]] + NonEmpty(ps[1..]);
      assert ps == [ps[0]] + ps[1..];
    }
  }

  // ---------------------------------------------------------------------------
  // The visible characters of a string

  /** The characters of `s` that are not whitespace, in order. */
  function NonSpace(s: string): (r: string)
    ensures |r| <= |s|
    ensures forall c :: c in r <==> c in s && !IsSpace(c)
  {
    if s == "" then ""
    else
      assert forall c :: c in s <==> c == s[0] || c in s[1..];
      (if IsSpace(s[0]) then "" else [s[0]]) + NonSpace(s[1..])
  }

  /** The visible characters of a concatenation are those of each part in turn. */
  lemma {:induction false} NonSpaceConcat(a: string, b: string)
    ensures NonSpace(a + b) == NonSpace(a) + NonSpace(b)
  {
    if a != "" {
      assert (a + b)[0] == a[0];
      assert (a + b)[1..] == a[1..] + b;
      NonSpaceConcat(a[1..], b);
    } else {
      assert a + b == b;
    }
  }

  /** A string has no visible character exactly when it is all whitespace. */
  lemma NonSpaceBlank(s: string)
    ensures NonSpace(s) == "" <==> AllSpace(s)
  {
    if !AllSpace(s) {
      var k :| 0 <= k < |s| && !IsSpace(s[k]);
      assert s[k] in NonSpace(s);
    }
  }

  /** `strip()` removes whitespace only. */
  lemma NonSpaceStrip(s: string)
    ensures NonSpace(Strip(s)) == NonSpace(s)
  {
    var r := Strip(s);
    var i := StripStart(s);
    var j := i + |r|;
    var head, tail := s[..i], s[j..];
    assert s == head + r + tail;
    assert AllSpace(head) by {
      forall k | 0 <= k < |head| ensures IsSpace(head[k]) { assert head[k] == s[k]; }
    }
    assert AllSpace(tail) by {
      forall k | 0 <= k < |tail| ensures IsSpace(tail[k]) { assert tail[k] == s[j + k]; }
    }
    NonSpaceBlank(head);
    NonSpaceBlank(tail);
    NonSpaceConcat(head + r, tail);
    NonSpaceConcat(head, r);
  }

  /** Whitespace between two parts of a string adds no visible character. */
  lemma NonSpaceAround(s: string, i: nat, j: nat)
    requires i <= j <= |s| && AllSpace(s[i..j])
    ensures NonSpace(s) == NonSpace(s[..i]) + NonSpace(s[j..])
  {
    var a, gap, b := s[..i], s[i..j], s[j..];
    assert s == a + gap + b;
    NonSpaceBlank(gap);
    NonSpaceConcat(a + gap, b);
    NonSpaceConcat(a, gap);
  }

  /** The visible characters of a list of strings, one string after another. */
  function NonSpaceOf(parts: seq<string>): string {
    if parts == [] then "" else NonSpace(parts[0]) + NonSpaceOf(parts[1..])
  }

  lemma {:induction false} NonSpaceOfConcat(a: seq<string>, b: seq<string>)
    ensures NonSpaceOf(a + b) == NonSpaceOf(a) + NonSpaceOf(b)
  {
    if a != [] {
      assert (a + b)[0] == a[0];
      assert (a + b)[1..] == a[1..] + b;
      NonSpaceOfConcat(a[1..], b);
    } else {
      assert a + b == b;
    }
  }

  /** Joining with a whitespace separator adds no visible character. */
  lemma {:induction false} NonSpaceJoin(sep: string, parts: seq<string>)
    requires AllSpace(sep)
    ensures NonSpace(Join(sep, parts)) == NonSpaceOf(parts)
  {
    if |parts| == 1 {
      assert parts[1..] == [];
    } else if |parts| > 1 {
      NonSpaceJoin(sep, parts[1..]);
      NonSpaceConcat(parts[0] + sep, Join(sep, parts[1..]));
      NonSpaceConcat(parts[0], sep);
      NonSpaceBlank(sep);
    }
  }

  /** Splitting on a whitespace separator loses no visible character. */
  lemma NonSpaceSplit(s: string, sep: string)
    requires |sep| > 0 && AllSpace(sep)
    ensures NonSpaceOf(Split(s, sep)) == NonSpace(s)
  {
    JoinSplit(s, sep);
    NonSpaceJoin(sep, Split(s, sep));
  }

  /** Stripping every string of a list loses no visible character. */
  lemma {:induction false} NonSpaceStripEach(parts: seq<string>, stripped: seq<string>)
    requires |stripped| == |parts| && forall k :: 0 <= k < |parts| ==> stripped[k] == Strip(parts[k])
    ensures NonSpaceOf(stripped) == NonSpaceOf(parts)
  {
    if parts != [] {
      NonSpaceStrip(parts[0]);
      NonSpaceStripEach(parts[1..], stripped[1..]);
    }
  }

  /** Dropping empty strings loses no visible character. */
  lemma {:induction false} NonSpaceOfNonEmpty(xs: seq<string>)
    ensures NonSpaceOf(NonEmpty(xs)) == NonSpaceOf(xs)
  {
    if xs != [] {
      NonSpaceOfNonEmpty(xs[1..]);
      if xs[0] != "" {
        assert ([xs[0]] + NonEmpty(xs[1..]))[1..] == NonEmpty(xs[1..]);
      }
    }
  }

  // ---------------------------------------------------------------------------
  // str() of a non-negative integer

  predicate IsDigit(c: char) {
    '0' <= c <= '9'
  }

  predicate AllDigits(s: string) {
    forall k :: 0 <= k < |s| ==> IsDigit(s[k])
  }

  function DigitChar(d: nat): (c: char)
    requires d < 10
    ensures IsDigit(c)
  {
    (48 + d) as char
  }

  /** Python's `str(n)` for `n >= 0`: decimal digits, most significant first, no leading zero. */
  function NatToString(n: nat): (s: string)
    ensures |s| >= 1 && AllDigits(s)
    ensures |s| > 1 ==> s[0] != '0'
  {
    if n < 10 then [DigitChar(n)]
    else NatToString(n / 10) + [DigitChar(n % 10)]
  }

  /** The number a string of decimal digits denotes (Python's `int(s)`). */
  function ParseDigits(s: string): nat
    requires AllDigits(s)
  {
    if |s| == 0 then 0
    else 10 * ParseDigits(s[..|s| - 1]) + (s[|s| - 1] as int - 48)
  }

  /** Reading back the decimal rendering of `n` gives `n`. */
  lemma {:induction false} ParseNatToString(n: nat)
    ensures ParseDigits(NatToString(n)) == n
  {
    if n >= 10 {
      var s := NatToString(n);
      assert s[..|s| - 1] == NatToString(n / 10);
      ParseNatToString(n / 10);
    }
  }

  /** Distinct numbers have distinct decimal renderings. */
  lemma NatToStringInjective(a: nat, b: nat)
    ensures NatToString(a) == NatToString(b) ==> a == b
  {
    ParseNatToString(a);
    ParseNatToString(b);
  }
}

=== FILE: whitespace.dfy ===
/** The whitespace clean-up at the end of `ConfluenceIndexer.clean_html`: the text the
    HTML parser extracted is split into lines, every line is stripped and split on double
    spaces, every phrase is stripped, empty phrases are dropped, and the rest are joined
    with line feeds. */
module Whitespace {
  import opened Text

  /** The two-space separator phrases are split on. */
  const DoubleSpace: string := "  "

  /** The line boundaries of Python's `str.splitlines()` ("\r\n" counts as one boundary). */
  predicate IsLineBreak(c: char) {
    || c == '\n' || c == '\r' || c == '\U{b}' || c == '\U{c}'
    || c == '\U{1c}' || c == '\U{1d}' || c == '\U{1e}'
    || c == '\U{85}' || c == '\U{2028}' || c == '\U{2029}'
  }

  predicate NoLineBreak(s: string) {
    forall c :: c in s ==> !IsLineBreak(c)
  }

  /** Index of the first line boundary of `s`, or |s| if there is none. */
  function FirstLineBreak(s: string): (i: nat)
    ensures i <= |s|
    ensures forall k :: 0 <= k < i ==> !IsLineBreak(s[k])
    ensures i < |s| ==> IsLineBreak(s[i])
  {
    if |s| == 0 || IsLineBreak(s[0]) then 0
    else 1 + FirstLineBreak(s[1..])
  }

  /** Python's `s.splitlines()`: the lines of `s`, without their terminators; no trailing
      empty line after a final terminator, and no line at all for "". */
  function SplitLines(s: string): (lines: seq<string>)
    ensures lines == [] <==> s == ""
    decreases |s|
  {
    if s == "" then []
    else
      var i := FirstLineBreak(s);
      if i == |s| then [s]
      else [s[..i]] + SplitLines(s[AfterBreak(s, i)..])
  }

  /** Every line is free of line boundaries and made of characters of the text. */
  lemma {:induction false} SplitLinesShape(s: string)
    ensures forall l <- SplitLines(s) :: NoLineBreak(l) && CharsIn(l, s)
    decreases |s|
  {
    if s != "" {
      var i := FirstLineBreak(s);
      var line := s[..i];
      forall c | c in line
        ensures !IsLineBreak(c) && c in s
      {
        var k :| 0 <= k < |line| && line[k] == c;
        assert s[k] == c;
      }
      if i < |s| {
        var next := AfterBreak(s, i);
        SplitLinesShape(s[next..]);
        forall l <- SplitLines(s[next..]), c | c in l
          ensures c in s
        {
          assert c in s[next..];
        }
      }
    }
  }

  /** Where the next line starts after the boundary at `i`: a "\r\n" pair is skipped whole. */
  function AfterBreak(s: string, i: nat): (next: nat)
    requires i < |s|
    ensures i < next <= |s|
  {
    if s[i] == '\r' && i + 1 < |s| && s[i + 1] == '\n' then i + 2 else i + 1
  }

  /** One line's phrases: the stripped line split on double spaces, each piece stripped. */
  function Phrases(line: string): seq<string> {
    var parts := Split(Strip(line), DoubleSpace);
    seq(|parts|, k requires 0 <= k < |parts| => Strip(parts[k]))
  }

  /** The phrases of all lines, in order. */
  function AllPhrases(lines: seq<string>): seq<string> {
    if lines == [] then [] else Phrases(lines[0]) + AllPhrases(lines[1..])
  }

  /** A line of normalised output: non-empty, one line, stripped, no double space. */
  predicate Clean(p: string) {
    p != "" && NoLineBreak(p) && Strip(p) == p && !Contains(p, DoubleSpace)
  }

  /** The non-empty phrases of the text, in order: the lines of the normalised text. */
  function Pieces(text: string): seq<string> {
    NonEmpty(AllPhrases(SplitLines(text)))
  }

  /** The normalised text handed to the chunker. */
  function Normalize(text: string): (r: string)
    ensures r == "" <==> AllSpace(text)
    ensures !Contains(r, "\n\n")
    ensures r != "" ==> r[0] != '\n' && r[|r| - 1] != '\n'
    ensures !Contains(r, DoubleSpace)
    ensures forall l <- SplitLines(r) :: l != "" && Strip(l) == l
    ensures NonSpace(r) == NonSpace(text)
    ensures forall c :: c in text && !IsSpace(c) ==> c in r
  {
    PiecesClean(text);
    JoinedLinesShape(Pieces(text));
    AllSpaceIffNoPieces(text);
    PiecesKeepText(text);
    NonSpaceJoin("\n", Pieces(text));
    Join("\n", Pieces(text))
  }

  // ---------------------------------------------------------------------------
  // Proofs

  lemma LineBreakIsSpace(c: char)
    requires IsLineBreak(c)
    ensures IsSpace(c)
  {
  }

  lemma CharsInTrans(a: string, b: string, c: string)
    requires CharsIn(a, b) && CharsIn(b, c)
    ensures CharsIn(a, c)
  {
  }

  /** A stripped piece of line-free text that holds no double space is clean. */
  lemma PieceClean(part: string, src: string)
    requires NoLineBreak(src) && CharsIn(part, src)
    requires !Contains(part, DoubleSpace) && Strip(part) != ""
    ensures Clean(Strip(part))
  {
    var p := Strip(part);
    StripCharsIn(part);
    StripIdempotent(part);
    if Contains(p, DoubleSpace) {
      ContainsSlice(part, StripStart(part), StripStart(part) + |p|, DoubleSpace);
    }
  }

  /** Every non-empty phrase of a single line is clean. */
  lemma PhrasesClean(line: string)
    requires NoLineBreak(line)
    ensures forall p <- Phrases(line) :: p != "" ==> Clean(p)
  {
    var stripped := Strip(line);
    StripCharsIn(line);
    var parts := Split(stripped, DoubleSpace);
    SplitParts(stripped, DoubleSpace);
    forall k | 0 <= k < |parts| && Strip(parts[k]) != ""
      ensures Clean(Strip(parts[k]))
    {
      assert parts[k] in parts;
      CharsInTrans(parts[k], stripped, line);
      PieceClean(parts[k], line);
    }
  }

  /** Every piece of any text is clean. */
  lemma PiecesClean(text: string)
    ensures forall p <- Pieces(text) :: Clean(p)
  {
    SplitLinesShape(text);
    AllPhrasesClean(SplitLines(text));
  }

  /** Every non-empty phrase of lines without line breaks is clean. */
  lemma {:induction false} AllPhrasesClean(lines: seq<string>)
    requires forall l <- lines :: NoLineBreak(l)
    ensures forall p <- AllPhrases(lines) :: p != "" ==> Clean(p)
  {
    if lines != [] {
      PhrasesClean(lines[0]);
      AllPhrasesClean(lines[1..]);
    }
  }

  /** Joining clean lines with line feeds: the shape of `Normalize`'s output. */
  lemma JoinClean(ps: seq<string>)
    requires forall p <- ps :: Clean(p)
    ensures var r := Join("\n", ps);
      && (r == "" <==> ps == [])
      && (r != "" ==> !IsSpace(r[0]) && !IsSpace(r[|r| - 1]))
      && !Contains(r, "\n\n")
      && !Contains(r, DoubleSpace)
      && SplitLines(r) == ps
  {
    forall p <- ps
      ensures p != "" && !IsSpace(p[0]) && !IsSpace(p[|p| - 1])
      ensures NoLineBreak(p) && !Contains(p, "\n\n") && !Contains(p, DoubleSpace)
    {
      StripFixedPoint(p);
      NoLineBreakNoPair(p);
    }
    JoinEnds(ps);
    JoinNoPair(ps, "\n\n");
    JoinNoPair(ps, DoubleSpace);
    JoinLines(ps);
  }

  /** Joined clean lines, stated as the normalised text's shape. */
  lemma JoinedLinesShape(ps: seq<string>)
    requires forall p <- ps :: Clean(p)
    ensures var r := Join("\n", ps);
      && (r == "" <==> ps == [])
      && !Contains(r, "\n\n")
      && (r != "" ==> r[0] != '\n' && r[|r| - 1] != '\n')
      && !Contains(r, DoubleSpace)
      && forall l <- SplitLines(r) :: l != "" && Strip(l) == l
  {
    JoinClean(ps);
  }

  /** A string without line boundaries holds no pair of line feeds. */
  lemma NoLineBreakNoPair(p: string)
    requires NoLineBreak(p)
    ensures !Contains(p, "\n\n")
  {
    forall i | 0 <= i <= |p|
      ensures !OccursAt(p, "\n\n", i)
    {
      if i + 2 <= |p| {
        assert p[i..i + 2][0] == p[i];
        assert p[i] in p;
      }
    }
  }

  /** The join of non-empty parts is empty only for no parts, and starts and ends as they do. */
  lemma {:induction false} JoinEnds(ps: seq<string>)
    requires forall p <- ps :: p != "" && !IsSpace(p[0]) && !IsSpace(p[|p| - 1])
    ensures var r := Join("\n", ps);
      && (r == "" <==> ps == [])
      && (r != "" ==> !IsSpace(r[0]) && !IsSpace(r[|r| - 1]))
  {
    if |ps| >= 1 {
      assert ps[0] in ps;
    }
    if |ps| > 1 {
      assert forall p <- ps[1..] :: p in ps;
      JoinEnds(ps[1..]);
    }
  }

  /** Joining with a line feed creates no whitespace pair when no part holds one and
      every part starts and ends with a non-space. */
  lemma {:induction false} JoinNoPair(ps: seq<string>, pair: string)
    requires |pair| == 2 && IsSpace(pair[0]) && IsSpace(pair[1])
    requires forall p <- ps :: p != "" && !IsSpace(p[0]) && !IsSpace(p[|p| - 1])
    requires forall p <- ps :: !Contains(p, pair)
    ensures !Contains(Join("\n", ps), pair)
  {
    if |ps| == 1 {
      assert ps[0] in ps;
    } else if |ps| > 1 {
      var p := ps[0];
      assert p in ps;
      assert forall q <- ps[1..] :: q in ps;
      JoinNoPair(ps[1..], pair);
      JoinEnds(ps[1..]);
      var tail := Join("\n", ps[1..]);
      assert Join("\n", ps) == p + ("\n" + tail);
      NoPairAcrossBreak(p, tail, pair);
    }
  }

  /** Joining two whitespace-free-ended strings with a line feed creates no whitespace pair. */
  lemma NoPairAcrossBreak(p: string, tail: string, pair: string)
    requires |pair| == 2 && IsSpace(pair[0]) && IsSpace(pair[1])
    requires p != "" && !IsSpace(p[|p| - 1]) && !Contains(p, pair)
    requires tail != "" && !IsSpace(tail[0]) && !Contains(tail, pair)
    ensures !Contains(p + ("\n" + tail), pair)
  {
    var nt := "\n" + tail;
    assert !Contains("\n", pair) by {
      forall i | 0 <= i <= 1
        ensures !OccursAt("\n", pair, i)
      {
      }
    }
    if Contains(nt, pair) {
      ContainsConcat("\n", tail, pair);
    }
    if Contains(p + nt, pair) {
      ContainsConcat(p, nt, pair);
    }
  }

  /** The lines of a line-feed join of non-empty, line-free parts are those parts. */
  lemma {:induction false} JoinLines(ps: seq<string>)
    requires forall p <- ps :: p != "" && NoLineBreak(p)
    ensures SplitLines(Join("\n", ps)) == ps
  {
    if |ps| == 1 {
      var p := ps[0];
      assert p in ps;
      FirstLineBreakSkips(p, "");
      assert p + "" == p;
    } else if |ps| > 1 {
      var p := ps[0];
      assert p in ps;
      assert forall q <- ps[1..] :: q in ps;
      JoinLines(ps[1..]);
      JoinLinesStep(p, ps[1..]);
    }
  }

  /** The lines of `p + "\n" + tail` are `p` followed by the lines of `tail`. */
  lemma JoinLinesStep(p: string, rest: seq<string>)
    requires NoLineBreak(p) && |rest| >= 1
    ensures SplitLines(Join("\n", [p] + rest)) == [p] + SplitLines(Join("\n", rest))
  {
    JoinCons("\n", p, rest);
    SplitLinesCons(p, Join("\n", rest));
  }

  /** A line-free `p` followed by a line feed is the first line. */
  lemma SplitLinesCons(p: string, t: string)
    requires NoLineBreak(p)
    ensures SplitLines(p + "\n" + t) == [p] + SplitLines(t)
  {
    var r := p + "\n" + t;
    FirstLineBreakSkips(p, "\n" + t);
    assert r == p + ("\n" + t);
    assert r[|p|] == '\n';
    assert AfterBreak(r, |p|) == |p| + 1;
    assert r[..|p|] == p;
    assert r[|p| + 1..] == t;
  }

  /** The first line boundary of `p + q` is the end of a line-free `p` when `q` starts with one. */
  lemma {:induction false} FirstLineBreakSkips(p: string, q: string)
    requires NoLineBreak(p)
    requires q == "" || IsLineBreak(q[0])
    ensures FirstLineBreak(p + q) == |p|
  {
    if p != "" {
      assert p[0] in p;
      assert forall c <- p[1..] :: c in p;
      FirstLineBreakSkips(p[1..], q);
      assert (p + q)[1..] == p[1..] + q;
    }
  }

  /** Unfolding `SplitLines` at a first boundary inside the text. */
  lemma SplitLinesAt(s: string, i: nat, next: nat)
    requires s != "" && i == FirstLineBreak(s) && i < |s| && next == AfterBreak(s, i)
    ensures SplitLines(s) == [s[..i]] + SplitLines(s[next..])
  {
  }

  /** A character that is not a boundary lies before the first boundary or after its end. */
  lemma PastBreak(s: string, i: nat, k: nat)
    requires i == FirstLineBreak(s) && i <= k < |s| && !IsLineBreak(s[k])
    ensures i < |s| && k >= AfterBreak(s, i)
  {
  }

  /** A character that is neither a separator character nor absent from the join lies in some part. */
  lemma {:induction false} JoinMember(sep: string, parts: seq<string>, k: nat) returns (m: nat, k': nat)
    requires k < |Join(sep, parts)| && Join(sep, parts)[k] !in sep
    ensures m < |parts| && k' < |parts[m]| && parts[m][k'] == Join(sep, parts)[k]
  {
    var s := Join(sep, parts);
    if |parts| == 1 {
      m, k' := 0, k;
    } else {
      var tail := Join(sep, parts[1..]);
      assert s == parts[0] + sep + tail;
      if k < |parts[0]| {
        m, k' := 0, k;
      } else {
        forall j | |parts[0]| <= j < |parts[0]| + |sep|
          ensures s[j] in sep
        {
          assert s[j] == sep[j - |parts[0]|];
        }
        var t := k - |parts[0]| - |sep|;
        assert tail[t] == s[k];
        var m1, k1 := JoinMember(sep, parts[1..], t);
        m, k' := m1 + 1, k1;
      }
    }
  }

  /** Every character of `s` that is not a line boundary lies on one of its lines. */
  lemma {:induction false} SplitLinesCovers(s: string, k: nat) returns (j: nat, k': nat)
    requires k < |s| && !IsLineBreak(s[k])
    ensures j < |SplitLines(s)| && k' < |SplitLines(s)[j]| && SplitLines(s)[j][k'] == s[k]
    decreases |s|
  {
    var i := FirstLineBreak(s);
    if k < i {
      FirstLineCovers(s, i, k);
      j, k' := 0, k;
    } else {
      PastBreak(s, i, k);
      var next := AfterBreak(s, i);
      var t := s[next..];
      assert t[k - next] == s[k];
      var j1, k1 := SplitLinesCovers(t, k - next);
      SplitLinesAt(s, i, next);
      ConsIndex(s[..i], SplitLines(t), j1, k1);
      j, k' := j1 + 1, k1;
    }
  }

  /** A character before the first boundary lies on the first line. */
  lemma FirstLineCovers(s: string, i: nat, k: nat)
    requires i == FirstLineBreak(s) && k < i
    ensures |SplitLines(s)| > 0 && k < |SplitLines(s)[0]| && SplitLines(s)[0][k] == s[k]
  {
    if i < |s| {
      SplitLinesAt(s, i, AfterBreak(s, i));
    }
  }

  /** Indexing past the head of a cons. */
  lemma ConsIndex(head: string, rest: seq<string>, j: nat, k: nat)
    requires j < |rest| && k < |rest[j]|
    ensures ([head] + rest)[j + 1] == rest[j]
  {
  }

  /** The phrases of one line are among the phrases of the lines. */
  lemma {:induction false} PhrasesInAll(lines: seq<string>, j: nat, x: string)
    requires j < |lines| && x in Phrases(lines[j])
    ensures x in AllPhrases(lines)
  {
    var head, rest := Phrases(lines[0]), AllPhrases(lines[1..]);
    assert AllPhrases(lines) == head + rest;
    if j > 0 {
      assert lines[1..][j - 1] == lines[j];
      PhrasesInAll(lines[1..], j - 1, x);
    }
  }

  /** Every phrase of all-blank lines is empty. */
  lemma {:induction false} BlankPhrases(lines: seq<string>)
    requires forall l <- lines :: AllSpace(l)
    ensures forall p <- AllPhrases(lines) :: p == ""
  {
    if lines != [] {
      assert lines[0] in lines;
      assert Strip(lines[0]) == "";
      assert !Contains("", DoubleSpace);
      assert Split("", DoubleSpace) == [""];
      BlankPhrases(lines[1..]);
    }
  }

  /** The text normalises to nothing exactly when it is all whitespace. */
  lemma AllSpaceIffNoPieces(text: string)
    ensures AllSpace(text) <==> Pieces(text) == []
  {
    if AllSpace(text) {
      BlankTextNoPieces(text);
    } else {
      var k :| 0 <= k < |text| && !IsSpace(text[k]);
      VisibleCharKept(text, text[k]);
    }
  }

  /** All-whitespace text yields no phrase. */
  lemma BlankTextNoPieces(text: string)
    requires AllSpace(text)
    ensures Pieces(text) == []
  {
    var lines := SplitLines(text);
    SplitLinesShape(text);
    forall l <- lines
      ensures AllSpace(l)
    {
      forall k | 0 <= k < |l|
        ensures IsSpace(l[k])
      {
        assert l[k] in l;
        assert l[k] in text;
      }
    }
    BlankPhrases(lines);
  }

  /** A non-whitespace character of the text survives into some phrase. */
  lemma VisibleCharKept(text: string, c: char)
    requires c in text && !IsSpace(c)
    ensures Pieces(text) != []
  {
    var lines := SplitLines(text);
    var k :| 0 <= k < |text| && text[k] == c;
    if IsLineBreak(c) {
      LineBreakIsSpace(c);
    }
    var j, kl := SplitLinesCovers(text, k);
    var l := lines[j];
    assert c in l;
    StripKeeps(l, c);
    var stripped := Strip(l);
    var parts := Split(stripped, DoubleSpace);
    JoinSplit(stripped, DoubleSpace);
    var ks :| 0 <= ks < |stripped| && stripped[ks] == c;
    var m, kp := JoinMember(DoubleSpace, parts, ks);
    var part := parts[m];
    assert c in part;
    StripKeeps(part, c);
    var x := Phrases(l)[m];
    assert x != "";
    PhrasesInAll(lines, j, x);
  }

  /** Splitting into lines drops only line boundaries, which are whitespace. */
  lemma {:induction false} LinesKeepText(s: string)
    ensures NonSpaceOf(SplitLines(s)) == NonSpace(s)
    decreases |s|
  {
    if s != "" {
      var i := FirstLineBreak(s);
      if i == |s| {
        assert SplitLines(s) == [s];
        assert NonSpaceOf([s]) == NonSpace(s) + NonSpaceOf([]);
      } else {
        var next := AfterBreak(s, i);
        var line, rest := s[..i], s[next..];
        LinesKeepText(rest);
        SplitLinesAt(s, i, next);
        assert NonSpaceOf([line] + SplitLines(rest)) == NonSpace(line) + NonSpaceOf(SplitLines(rest)) by {
          assert ([line] + SplitLines(rest))[1..] == SplitLines(rest);
        }
        BreakIsSpace(s, i);
        NonSpaceAround(s, i, next);
      }
    }
  }

  /** A line boundary, "\r\n" included, is whitespace. */
  lemma BreakIsSpace(s: string, i: nat)
    requires i < |s| && IsLineBreak(s[i])
    ensures AllSpace(s[i..AfterBreak(s, i)])
  {
    LineBreakIsSpace(s[i]);
    var brk := s[i..AfterBreak(s, i)];
    forall k | 0 <= k < |brk|
      ensures IsSpace(brk[k])
    {
      assert brk[k] == s[i + k];
    }
  }

  /** A line's phrases hold exactly the line's visible characters, in order. */
  lemma PhrasesKeepText(line: string)
    ensures NonSpaceOf(Phrases(line)) == NonSpace(line)
  {
    var stripped := Strip(line);
    NonSpaceStripEach(Split(stripped, DoubleSpace), Phrases(line));
    NonSpaceSplit(stripped, DoubleSpace);
    NonSpaceStrip(line);
  }

  /** The phrases of all lines hold the lines' visible characters, in order. */
  lemma {:induction false} AllPhrasesKeepText(lines: seq<string>)
    ensures NonSpaceOf(AllPhrases(lines)) == NonSpaceOf(lines)
  {
    if lines != [] {
      PhrasesKeepText(lines[0]);
      AllPhrasesKeepText(lines[1..]);
      NonSpaceOfConcat(Phrases(lines[0]), AllPhrases(lines[1..]));
    }
  }

  /** The kept phrases hold every visible character of the text, in order, and nothing else. */
  lemma PiecesKeepText(text: string)
    ensures NonSpaceOf(Pieces(text)) == NonSpace(text)
  {
    LinesKeepText(text);
    AllPhrasesKeepText(SplitLines(text));
    NonSpaceOfNonEmpty(AllPhrases(SplitLines(text)));
  }

  /** Normalising normalised text changes nothing. */
  lemma NormalizeIdempotent(text: string)
    ensures Normalize(Normalize(text)) == Normalize(text)
  {
    var pieces := Pieces(text);
    PiecesClean(text);
    JoinClean(pieces);
    CleanPhrasesFixed(pieces);
    NonEmptyFixed(pieces);
  }

  /** Clean lines are their own phrases. */
  lemma {:induction false} CleanPhrasesFixed(ps: seq<string>)
    requires forall p <- ps :: Clean(p)
    ensures AllPhrases(ps) == ps
  {
    if ps != [] {
      assert ps[0] in ps;
      CleanPhrase(ps[0]);
      CleanPhrasesFixed(ps[1..]);
      assert ps == [ps[0]] + ps[1..];
    }
  }

  /** A clean line is its own single phrase. */
  lemma CleanPhrase(p: string)
    requires Clean(p)
    ensures Phrases(p) == [p]
  {
    assert Split(p, DoubleSpace) == [p];
  }
}

=== FILE: wrappers.dfy ===
/** Failure-carrying result types shared by the other modules. */
module Wrappers {

  /** A value that may be absent (a missing JSON key, a missing metadata file, an exhausted request budget). */
  datatype Option<+T> = None | Some(value: T) {

    /** The value, or `default` when absent (Python's `dict.get(key, default)`). */
    function GetOr(default: T): T {
      match this
      case Some(v) => v
      case None => default
    }
  }

  /** Either a computed value or the error that prevented computing it. */
  datatype Result<+R, +E> = Success(value: R) | Failure(error: E)
}
